=== FILE: README.md ===
# Offline entertainment — a Dafny model of its decision logic

The offline-entertainment project collects things to read and watch while
offline:

- **Books.** `offline_books.py` searches Project Gutenberg through the
  Gutendex API. For each book it picks the best download format and a
  cover, derives a safe directory name, and later builds one text report
  from the saved index.
- **Travel articles.** `travel_articles.py` collects candidate links from
  the BBC Travel homepage. It decides which fetched pages are articles
  (semantic tags or JSON-LD) and formats the matching ones.
- **Video player.** `video.py` is a small Tk video player. It reads an
  audio WAV in lock-step with the video frames and walks a playlist of
  downloaded shorts. `tktest.py` is a second copy with one fixed clip.

The model keeps the decisions and drops the I/O. Network replies, parsed
HTML facts, file contents and the URL joiner become inputs: sequences of
pages, `HtmlFacts` records, `VideoSource`/`AudioSource` values, and
functions such as `join` and `read`. Contracts state what a single call
gives; lemmas relate operations to each other (round trips, idempotence,
fixed points, distribution over concatenation, lock-step counts). Small
helpers such as `Words` or `Collect` carry only the facts their callers
need, and the lemmas listed below pin them down.

Modules, following the source files:

| module | models |
|---|---|
| `Outcomes` | `Option` / `Result` with `:-` support |
| `Strings` | the `str` operations the code relies on: `lower`, `in`, `startswith`, `endswith`, `join`, slicing, decimal `str(int)`, code-point ordering |
| `Formats` | `_pick_best_download`, `_pick_cover` |
| `SafeNames` | `_safe_name`, with the whitespace `split` it uses |
| `Books` | `search_gutenberg` (request and post-processing), the per-book derivations of `download_books`, `get_all_downloaded_books_text` |
| `ReportLaws` | how the report's sections compose, when it fails, how it opens and closes |
| `ArticleJson` | `_is_article_html` and its JSON-LD rule |
| `Articles` | link collection and the filter / format pipeline of `fetch_articles` |
| `Player` | `AudioPlayer`, `VideoPlayer`, and `update` / `toggle_play_pause` as a step function over a trace of requests |
| `Playback` | what `n` ticks of `update` ask of the players and how far they move them |
| `Apps` | `App` in video.py (playlist, `next_video`, buttons) and `StartPage` in tktest.py; the audio cache path; `extract_audio` |

Where the code and its documentation disagree, the model follows the code:

- `fetch_articles` ends after fetching the homepage (travel_articles.py:67-77): it returns the connection error message when the request raises, and nothing otherwise. Its link collection and filter loop sit under a `__main__` guard (lines 78-140) that uses the parameter `search_term`. The model's `FetchArticles` returns the error message on a failed homepage reply and otherwise continues with that loop (`ArticlesReport`), which is what the function's docstring describes.
- In tktest.py the `>>>` button calls `toggle_play_pause` (tktest.py:143), and `next_video` is `pass`. The model keeps both: in `StartPage`, `>>>` pauses and resumes.
- `extract_audio` (video.py:20-34) checks for the missing `cache` directory and then calls `os.mkdir` on the audio file's path, not on the directory, so the call raises. The front ends (`Launch`, `CreateApp`, `NextVideo`, `CreateStartPage`) use this extraction as written: without a `cache` directory no clip plays. The intended behaviour is kept beside it (see Findings).
- In `next_video` (video.py:87-94), an exception inside a Tk callback does not stop the program. Every assignment made before the raise stays in place. So the index moves even past the end of the playlist, and a clip whose audio fails to open leaves the new video playing with the old audio.

## Model

| member | source | states |
|---|---|---|
| Formats.Get | offline_books.py:44 | `None` exactly when no entry has the key; a returned URL is stored under that key |
| Formats.GetDistinct | offline_books.py:44 | on a map whose keys are distinct, as in the decoded `dict`, the lookup gives a value exactly when the pair is in the map |
| Formats.FirstEpub | offline_books.py:41-46 | the result is an EPUB key with a non-empty URL that comes first in the `(".noimages" not in k, k)` order among all such keys; `None` only when there is none |
| Formats.EpubBeforeTransitive | offline_books.py:43 | the sort key order is transitive |
| Formats.EpubBeforeAntisymmetric | offline_books.py:43 | two keys each sorted before the other are equal, so the chosen EPUB key does not depend on insertion order |
| Formats.PickBestDownload | offline_books.py:32-56 | the chosen pair is an entry of the map with a non-empty URL; an EPUB key is chosen whenever one has a URL, and it is the least in sort order; otherwise UTF-8 text with a `.txt` URL, then plain text with a `.txt` URL; otherwise the first text entry (insertion order) with a `.zip` URL, and `None` exactly when there is none |
| Formats.FirstZip | offline_books.py:52-55 | the first entry from the given position, in insertion order, whose key contains "text/plain" and whose URL ends in `.zip`; `None` exactly when no later entry qualifies |
| Formats.PickCover | offline_books.py:58-63 | the result is a URL stored under `image/jpeg` or `image/png` that starts with "http" ignoring case; JPEG wins when usable; `None` exactly when neither is usable |
| SafeNames.KeepChars | offline_books.py:66 | only alphanumerics, space, `_`, `-`, `.` survive, all taken from the input; a string made only of those is unchanged |
| SafeNames.KeepCharsAppend | offline_books.py:66 | filtering distributes over concatenation, so characters are kept or dropped one at a time, in order |
| SafeNames.KeepCharsSingle | offline_books.py:66 | a single character is kept exactly when it is alphanumeric, space, `_`, `-` or `.` |
| SafeNames.WordsChars | offline_books.py:67 | the words are non-empty and hold no whitespace, only characters of the input |
| SafeNames.WordsFirst | offline_books.py:67 | a string opening with a non-space splits into its first word, then the words of what follows it |
| SafeNames.WordAppend | offline_books.py:67 | the first word of `a + t` is the first word of `a` when `a` holds whitespace, and runs on into `t` otherwise |
| SafeNames.WordsSpaceJoin | offline_books.py:67 | splitting `a + " " + b` gives the words of `a` followed by the words of `b` |
| SafeNames.WordBeforeSpace | offline_books.py:67 | the first word of `a + " " + b` is the first word of `a` |
| SafeNames.WordsOfJoin | offline_books.py:67 | words joined by single spaces split back into the same words |
| SafeNames.OneWord | offline_books.py:67 | a non-empty string without whitespace splits into itself alone |
| SafeNames.SafeName | offline_books.py:65-67 | the result is 1 to 120 characters long, made of alphanumerics, `_`, `-`, `.`, and never contains whitespace |
| SafeNames.SafeNameFixedPoint | offline_books.py:65-67 | a string is unchanged by sanitising exactly when it is already a safe name |
| SafeNames.SafeNameIdempotent | offline_books.py:65-67 | sanitising twice equals sanitising once |
| SafeNames.SafeNameOfWords | offline_books.py:65-67 | safe words separated by spaces become the same words joined by `_`, cut to 120 characters |
| SafeNames.NoSafeCharGivesDefault | offline_books.py:67 | a string with no character a name may hold gives "book" |
| Books.Language | offline_books.py:98 | the language parameter is never empty: the given code when one is given, and "en" exactly when none is |
| Books.SearchTerms | offline_books.py:107-113 | one term per truthy query, truthy author and novel flag, in that order, none empty; the author term is `author:"…"` and comes right after the query, or first when there is no query |
| Books.SearchParams | offline_books.py:97-120 | `languages` always comes first; `search` is sent exactly when some term exists, is never empty, and is the terms joined by single spaces |
| Books.Collect | offline_books.py:117-123 | pages are appended while fewer than `limit` books are in hand; earlier results stay a prefix; every book comes from some page |
| Books.CollectTakes | offline_books.py:117-123 | the books collected are those in hand followed by the pages the loop takes |
| Books.TakenStops | offline_books.py:119 | the loop stops before the last page only once `limit` books are in hand |
| Books.TakenLeast | offline_books.py:119 | before each page the loop takes, fewer than `limit` books were in hand |
| Books.CollectPages | offline_books.py:117-123 | the result is the books in hand followed by the first `k` pages, where `k` is the first count that reaches `limit`, or all pages when none does |
| Books.Novels | offline_books.py:127 | only books with a subject containing "novel", in any letter case, and every such book; never longer than the input |
| Books.NovelsSingle | offline_books.py:127 | one book is kept, once, exactly when it is a novel; with `NovelsAppend` this fixes the filter on every list, so each novel appears once and in its original order |
| Books.NovelsAppend | offline_books.py:127 | the filter distributes over concatenation, so it keeps the order |
| Books.NovelFilter | offline_books.py:126-127 | when some book is a novel, exactly the novels are kept; when none is, the list is returned unchanged |
| Books.Search | offline_books.py:117-133 | at most `max(limit, 0)` books, all from the fetched pages, all novels when novels were requested and some were found; the result is the first `min(limit, n)` of the `n` collected (and, when asked, novel-filtered) books |
| Books.TitleFor | offline_books.py:147 | the title is never empty: the record's own when truthy, otherwise exactly "Gutenberg " followed by the id |
| Books.AuthorNamesFallback | offline_books.py:148 | the joined names are empty exactly for no author or one nameless author, and then the line is "Unknown"; otherwise it is the joined names: one author's own name, two names separated by ", ", and ", " whenever there are two or more |
| Books.ChosenFormatExtension | offline_books.py:158-161 | any chosen format gets `.epub` or `.txt`, never `.bin`; an EPUB gets `.epub`; a UTF-8 or plain text pick (no EPUB present) gets `.txt` |
| Books.BookExtension | offline_books.py:160 | `.epub` exactly when the MIME key contains "epub"; otherwise `.txt` exactly when it contains "text/plain"; `.bin` exactly when it contains neither |
| Books.TextKeysNotEpub | offline_books.py:48-51 | neither plain-text key, `text/plain; charset=utf-8` nor `text/plain`, contains "epub" |
| Books.CoverExtension | offline_books.py:173 | `.jpg` exactly when the URL ends in `.jpg`, and `.png` otherwise |
| Books.BookFile | offline_books.py:157-161 | a book file is planned exactly when a format was chosen; it downloads the chosen URL into "book" followed by the extension of the chosen MIME key, which is `book.epub` or `book.txt`: `book.epub` whenever an EPUB is available, `book.txt` for a UTF-8 or plain text pick; a zip fallback whose key also mentions "epub" gets `book.epub` |
| Books.CoverFile | offline_books.py:170-174 | a cover file is planned exactly when a cover was picked; it is `cover.jpg` exactly when the URL ends in `.jpg`, otherwise `cover.png` |
| Books.PlanFor | offline_books.py:145-174 | the plan's title and author line are the book's derived title and author line, both non-empty, and its directory is the safe name of "<title> - <authors>" |
| Books.AuthorsText | offline_books.py:308-311 | the join fails exactly when the author list holds a null; a field that is not a list reads "Unknown Author"; a list of names reads as those names joined with ", " |
| Books.BookBody | offline_books.py:313-323 | never empty: the book's text when readable, the "not found in metadata" placeholder when there is no file, and "[Could not read or parse book file: <file>]" when the file reads as empty |
| Books.Header | offline_books.py:315 | the header is "--- BOOK <i+1>: ", the title (or "Unknown Title"), " by ", the author line and " ---" with a blank line, each part at its own offset |
| Books.Section | offline_books.py:305-326 | a section fails exactly when its author join fails; otherwise it is the header, then the book body, then the rule line, each at its own offset |
| ReportLaws.SectionShape | offline_books.py:315-326 | a section starts with "--- BOOK <i+1>: " and ends with the 80-character rule; the digits after "--- BOOK " read back as i+1 |
| Books.Report | offline_books.py:301-302 | an empty index gives the "No books found" message |
| ReportLaws.SectionsAppend | offline_books.py:304-327 | adding a book appends its section, numbered by its position, after the sections before it |
| ReportLaws.ReportAppend | offline_books.py:304-328 | the report of a longer index is the shorter report followed by the new section, numbered by its position |
| ReportLaws.SectionsFailure | offline_books.py:308-311 | the sections fail exactly when some record's author list holds a null |
| ReportLaws.ReportFailure | offline_books.py:301-328 | a non-empty index fails exactly when some record's authors hold a null |
| ReportLaws.ReportShape | offline_books.py:301-328 | a successful non-empty report starts with "--- BOOK 1: " and ends with the rule line |
| ArticleJson.Get | travel_articles.py:55-59 | a decoded object's lookup finds a pair with that key, and nothing exactly when the key is absent |
| ArticleJson.GetLast | travel_articles.py:55-59 | of repeated keys the lookup gives the value of the last pair with that key, as `json.loads` keeps the last |
| ArticleJson.AnyArticleDict | travel_articles.py:61-64 | true exactly when some list item is an object with `@type` "Article" or a truthy `articleBody` |
| ArticleJson.ArticleEvidence | travel_articles.py:58-64 | a JSON-LD value is evidence exactly when it is such an object, or a list directly holding one |
| ArticleJson.AnyEvidence | travel_articles.py:53-57 | true exactly when some script decodes to evidence; undecodable scripts are skipped |
| ArticleJson.IsArticleHtml | travel_articles.py:45-65 | a page is an article exactly when it has an `article` tag, a text-block `div`, or JSON-LD evidence |
| Articles.CutFragment | travel_articles.py:92 | the result is the part of the href before the first `#` |
| Articles.Dedup | travel_articles.py:93-95 | no link repeats and the same links remain |
| Articles.CollectLinks | travel_articles.py:84-98 | the links are the first 30 distinct joined links of present, non-empty hrefs, in first-seen order; none repeats; each comes from a non-empty href |
| Articles.Entry | travel_articles.py:133-134 | an entry opens with the URL line and the length line, follows them with the first `min(1000, n)` characters of the text, and closes with "..." and an 80-character rule |
| Articles.EntryLengthField | travel_articles.py:133 | the length line holds decimal digits that read back as the length of the full text |
| Articles.Results | travel_articles.py:100-135 | at most one entry per visited page |
| Articles.ResultsFromKept | travel_articles.py:103-135 | every result is the entry of a visited page that passed every filter |
| Articles.ResultsEmptyIff | travel_articles.py:100-135 | the results are empty exactly when no visited page passes every filter |
| Articles.ResultsSingle | travel_articles.py:100-135 | a single visit yields its entry exactly when it passes every filter, and nothing otherwise |
| Articles.ResultsAppend | travel_articles.py:103-135 | the entries of a longer visit list extend those of a prefix, in visit order |
| Articles.ResultEntries | travel_articles.py:133-135 | every entry starts with "URL: " |
| Articles.TermMatching | travel_articles.py:124-131 | for an article page that passes the other filters: a blank term keeps it, and any other term keeps it exactly when the lower-cased term occurs in the lower-cased text |
| Articles.FetchArticles | travel_articles.py:67-77 | a failed homepage request gives "Error: Could not connect to BBC Travel. " followed by the error text; otherwise the result is the report of the filter loop; the two cases are told apart by the first character |
| Articles.ArticlesReport | travel_articles.py:137-140 | the "No articles found" message appears exactly when no page is kept; otherwise the result is the entries of the kept pages laid end to end, starting with "URL: " |
| Articles.ArticlesReportAppend | travel_articles.py:100-140 | when two runs of visits both find articles, the report for both is the first report followed by the second |
| Player.ToRgbInvolution | video.py:153 | swapping the first and third channels twice restores the frame |
| Player.ToRgb | video.py:153 | the frame keeps its size, and each pixel has its first and third channels swapped and its middle one kept |
| Player.OpenVideo | video.py:134-144 | opening fails with the video error exactly for an unopenable source; otherwise the player holds all frames and the source's rate |
| Player.OpenAudio | video.py:109-118 | opening fails exactly for an unreadable file; otherwise the player holds all frames and nothing is written yet |
| Player.PlayFrames | video.py:121-124 | the first `min(n, remaining)` frames are consumed and the rate is kept |
| Player.PlayFramesWrites | video.py:121-124 | one chunk, holding exactly the frames read, is written when something was read, none otherwise; earlier chunks stay |
| Player.PlayFramesConserves | video.py:121-124 | the written chunks followed by the unread frames are unchanged by a read: no frame is lost or duplicated |
| Player.NextFrame | video.py:146-155 | a frame is returned exactly while frames remain: the next one, converted to RGB, and it is consumed |
| Player.Ratio | video.py:52 | the ratio is the truncated quotient of the frame rates; a video rate of 0 raises `ZeroDivisionError` |
| Player.ToggleTwice | video.py:80-81 | toggling twice restores the engine |
| Player.Toggle | video.py:80-81 | the play flag flips and nothing else in the engine changes |
| Player.TickEventsShape | video.py:97-106 | while playing, an `update` asks for `ratio` audio frames, then one video frame, then draws when a frame came back; nothing after that is a request |
| Player.Tick | video.py:96-106 | one `update` appends its requests to the trace; while playing, it reads `ratio` audio frames and pulls one video frame; while paused, it leaves the players alone |
| Player.Run | video.py:96-106 | n ticks keep the play flag and ratio, and extend the trace by at least one entry per tick, keeping what it held |
| Playback.RunCounts | video.py:96-106 | after n ticks a playing engine has asked for exactly n·ratio audio frames and n video frames; a paused one for none |
| Playback.PausedRun | video.py:97 | ticks while paused leave both players unchanged |
| Playback.PlaysRest | video.py:121-124 | `n` reads of `ratio` frames advance the audio cursor past exactly the frames those reads take, each read taking what is left when fewer than `ratio` remain |
| Playback.ConsumedIsMin | video.py:121-124 | the frames taken by `n` reads of `ratio` frames total min(n·ratio, available) |
| Playback.PullsRest | video.py:146-155 | `n` pulls advance the video by min(n, remaining) frames |
| Playback.PlayingRunPlays | video.py:96-106 | while playing, the audio player after n ticks is the one after n reads of `ratio` frames, whatever the trace records |
| Playback.PlayingRunPulls | video.py:96-106 | while playing, the video player after n ticks is the one after n calls of next_frame |
| Playback.PlayingRunAudio | video.py:99 | after n playing ticks, the audio file has advanced by min(n·ratio, remaining) frames |
| Playback.PlayingRunVideo | video.py:100 | after n playing ticks, the video has advanced by min(n, remaining) frames |
| Playback.RunConservesAudio | video.py:121-124 | the frames written followed by the frames left always equal the original file |
| Playback.ZeroRatioStallsAudio | video.py:52 | with audio slower than video (ratio 0) no audio is ever consumed |
| Playback.SlowAudioGivesZeroRatio | video.py:52 | a 24 Hz audio track against 25 fps video gives ratio 0 |
| Apps.Basename | video.py:47 | the result is a suffix of the path without `/`, preceded by `/` when shorter |
| Apps.StripExtension | video.py:47 | the root is a prefix of the name; a name without a dot, or whose last dot has only dots before it, is kept whole; otherwise the name is cut just before its last dot |
| Apps.AudioPath | video.py:47 | the path is "cache/…wav" and its middle part has no `/` |
| Apps.BasenameOf | video.py:47 | the base name of `dir/name` is `name` |
| Apps.StripExtensionOf | video.py:47 | `stem.ext` loses exactly `.ext` when `ext` has no dot and `stem` is not all dots |
| Apps.AudioPathOf | video.py:47 | the audio of `dir/stem.ext` is cached as `cache/stem.wav` |
| Apps.ExtractAsWritten | video.py:20-34 | extraction succeeds exactly when the clip opens and the cache directory already exists |
| Apps.ExtractAudio | video.py:20-34 | extraction succeeds exactly when the clip opens |
| Apps.IntendedIsCachePresent | video.py:20-34 | the intended extraction is the written one with the cache directory present |
| Apps.LaunchNeedsCache | video.py:26-28 | without a `cache` directory every launch fails with the extraction error |
| Apps.LaunchIntended | video.py:20-54 | with the intended extraction, a launch succeeds exactly when the clip opens, both players open and the video rate is non-zero |
| Apps.Launch | video.py:46-54 | the launch succeeds exactly when the clip extracts (which needs the cache directory), the video opens, the audio opens and the video rate is non-zero; a failed extraction, video open or audio open gives that error, and a video rate of 0 gives `ZeroDivisionError`; a launched engine is playing and has ticked once |
| Apps.LaunchEngine | video.py:52-76 | a launched engine's ratio is the truncated quotient of the two rates and it is one tick past the freshly opened players |
| Apps.CreateApp | video.py:43-54 | an empty playlist raises `IndexError`; otherwise the app starts on short 0, playing, with the engine a launch of short 0 gives, and fails with that launch's error when the launch fails |
| Apps.NextVideo | video.py:87-94 | the index always advances by one, and the ratio, play flag and requests are kept; the call fails exactly when the next short is missing or unplayable; past the end or when extraction or the video open fails, the players stay and that error is returned; when only the audio open fails, the new video plays with the old audio; on success both players are the new clip's |
| Apps.NextVideoPastEnd | video.py:88-89 | past the last short, k presses advance the index by k and never touch the engine |
| Apps.PressApp | video.py:64-85 | `PLAY/PAUSE` toggles, `DOWNLOAD` leaves the player alone, `>>>` is `next_video` and advances the index |
| Apps.CreateStartPage | tktest.py:123-152 | the start page is the launch of the fixed clip: it plays exactly when that clip is playable (extracted with the cache directory present, both players open) with a non-zero video rate |
| Apps.StartPageLikeApp | tktest.py:123-152 | the start page succeeds, fails and plays exactly as `App` would on a playlist holding only its fixed clip |
| Apps.PressStartPage | tktest.py:140-147 | `>>>` and `PLAY/PAUSE` both toggle; `DOWNLOAD` changes nothing |
| Apps.StartPageButtons | tktest.py:143-161 | whatever buttons are pressed, players, ratio and requests stay the same, and the play flag flips once per non-download press |

## Left out

- Network access (`_get`, `_download_file`, `requests.get`, the BBC pages): replies are inputs. A failed book or cover download only nulls the local path, which the report models as a missing file.
- HTML parsing (BeautifulSoup): a page is reduced to the facts the code queries (`HtmlFacts`), and `get_article_text` to the text it returns.
- `json.loads` on script text: a script is either undecodable or a decoded `Json` value.
- `urljoin`: the join is a function parameter.
- File-system effects: directory creation, `metadata.json` and `index.json` writes, the index-missing and index-unreadable messages of `get_all_downloaded_books_text`, and `get_epub_text` (the `read` parameter of `BookBody`). EPUB reading with ebooklib is left out as well.
- `random.shuffle` in `search_gutenberg`: `Search` models the unshuffled path. A shuffle only permutes the list before the cut.
- Sleeping between downloads, and the `argparse` entry point `main`.
- Books.Search: the page loop's stop condition is modelled on the list of pages, so a server that never stops returning `next` links is outside the model.
- Frame rates are natural numbers. OpenCV reports them as floats, so `Player.Ratio` models `int(a / b)` on whole rates only.
- Strings.IsAlnum, Strings.IsSpace and Strings.LowerChar: ASCII only, without Python's Unicode character classes.
- Drawing on the canvas, Tk widgets, `mainloop`, the PyAudio stream, and `__del__` clean-up. The timer is recorded as a `Reschedule` request rather than executed.
- `next_frame` can return an unbound `ret` when the capture is closed. A `VideoPlayer` is only built after a successful open and is never released, so the model never reaches that path.
- `extract_audio`'s own work (moviepy decoding and writing the WAV) is a per-clip input, `clipOpens`.
- tktest.py builds its widgets on a module-level `root` and calls `self.root.after`, neither of which it defines. The model treats both as the page's own window.
- Apps.CreateApp: video.py:43 calls `youtube.download_videos("spaghetti", 15)`, but youtube.py:78 declares three parameters (`search`, `num_videos`, `video_dir`), so `App.__init__` raises `TypeError` before any player exists. The model takes the playlist as an input and describes the constructor from the line after that call.
- `youtube.py` (`download_videos`): the playlist is an input. `main.py` and the `UI_*` frames are Tk layout only.
- The duplicate `__main__` block of travel_articles.py after line 140, which cannot be parsed, is not part of this model.
- `on_download` reads and clears the search box and does nothing else, so `DOWNLOAD` is the identity on player state.

## Findings

| source | as written | input that shows it | evidently intended | confidence | as-written member | corrected member |
|---|---|---|---|---|---|---|
| video.py:26-28 | when the directory of the audio path is missing, `os.mkdir` is called on the audio path itself, whose parent is that same missing directory, so it raises | a fresh checkout without `cache/`: any clip, with `cacheExists` false | create the missing directory, then write the WAV into it | high (not executed) | Apps.ExtractAsWritten, Apps.FreshCacheDiffers, Apps.LaunchNeedsCache | Apps.ExtractAudio, Apps.IntendedIsCachePresent, Apps.LaunchIntended |

The front ends keep the extraction as written, so the rest of the model describes the program as it behaves; `LaunchIntended` describes them with the corrected extraction.

=== FILE: apps.dfy ===
/** The two front ends around the playback engine: `App` in video.py, which
    walks a playlist of downloaded shorts, and `StartPage` in tktest.py,
    which plays one fixed file. Both open the players, compute the ratio,
    start playing and run the first tick from their constructor. */
module Apps {
  import opened Outcomes
  import opened Strings
  import opened Player

  // --- Audio cache path --------------------------------------------------------------

  /** `os.path.basename(p)`: what follows the last `/`. */
  function Basename(p: string): (b: string)
    ensures IsSuffix(b, p) && '/' !in b
    ensures |b| < |p| ==> p[|p| - |b| - 1] == '/'
    decreases |p|
  {
    if |p| == 0 || p[|p| - 1] == '/' then ""
    else
      var init := p[..|p| - 1];
      var bi := Basename(init);
      var b := bi + [p[|p| - 1]];
      assert p == init + [p[|p| - 1]];
      assert p[|p| - |b|..] == init[|init| - |bi|..] + [p[|p| - 1]];
      assert |b| < |p| ==> p[|p| - |b| - 1] == init[|init| - |bi| - 1];
      b
  }

  /** The index of the last `.` in `b`, if any. */
  function LastDot(b: string): (r: Option<nat>)
    ensures r.Some? ==> r.value < |b| && b[r.value] == '.' && forall j :: r.value < j < |b| ==> b[j] != '.'
    ensures r.None? ==> forall j :: 0 <= j < |b| ==> b[j] != '.'
    decreases |b|
  {
    if |b| == 0 then None
    else if b[|b| - 1] == '.' then Some(|b| - 1)
    else LastDot(b[..|b| - 1])
  }

  /** Some character before position `d` is not a dot. */
  predicate NonDotBefore(b: string, d: nat) {
    d <= |b| && exists j :: 0 <= j < d && b[j] != '.'
  }

  /** `os.path.splitext(b)[0]` for a name without `/`: cut at the last `.`
      unless only dots precede it (so ".bashrc" keeps its dot). */
  function StripExtension(b: string): (root: string)
    ensures IsPrefix(root, b)
    ensures LastDot(b).None? ==> root == b
    ensures LastDot(b).Some? && !NonDotBefore(b, LastDot(b).value) ==> root == b
    ensures root != b ==> |root| < |b| && b[|root|] == '.' && forall j :: |root| < j < |b| ==> b[j] != '.'
  {
    match LastDot(b)
    case Some(d) => if NonDotBefore(b, d) then b[..d] else b
    case None => b
  }

  /** `f"cache/{os.path.splitext(os.path.basename(video_path))[0]}.wav"` */
  function AudioPath(videoPath: string): (r: string)
    ensures |r| >= 10 && IsPrefix("cache/", r) && IsSuffix(".wav", r)
    ensures '/' !in r[6..|r| - 4]
  {
    var root := StripExtension(Basename(videoPath));
    var r := "cache/" + root + ".wav";
    assert r[6..|r| - 4] == root;
    assert r[..6] == "cache/";
    r
  }

  /** The base name of `dir/name` is `name`. */
  lemma BasenameOf(dir: string, name: string)
    requires '/' !in name
    ensures Basename(dir + "/" + name) == name
  {
    var p := dir + "/" + name;
    var b := Basename(p);
    assert p[|p| - |name| - 1] == '/';
    assert |b| == |name|;
    assert b == p[|p| - |name|..] == name;
  }

  /** `stem.ext` loses exactly `.ext` when `ext` has no dot and `stem` is not
      all dots. */
  lemma StripExtensionOf(stem: string, ext: string)
    requires '.' !in ext
    requires exists j :: 0 <= j < |stem| && stem[j] != '.'
    ensures StripExtension(stem + "." + ext) == stem
  {
    var b := stem + "." + ext;
    var d := LastDot(b);
    assert b[|stem|] == '.';
    assert d.Some?;
    assert d.value == |stem|;
    var j :| 0 <= j < |stem| && stem[j] != '.';
    assert b[j] == stem[j];
    assert NonDotBefore(b, |stem|);
    assert b[..|stem|] == stem;
  }

  /** The audio of `dir/stem.ext` is cached as `cache/stem.wav`. */
  lemma AudioPathOf(dir: string, stem: string, ext: string)
    requires '/' !in stem && '/' !in ext && '.' !in ext
    requires exists j :: 0 <= j < |stem| && stem[j] != '.'
    ensures AudioPath(dir + "/" + stem + "." + ext) == "cache/" + stem + ".wav"
  {
    assert dir + "/" + stem + "." + ext == dir + "/" + (stem + "." + ext);
    BasenameOf(dir, stem + "." + ext);
    StripExtensionOf(stem, ext);
  }

  // --- Extracting the audio ----------------------------------------------------------

  /** How `extract_audio` ends: the wav file is written, opening the clip
      fails, or creating the cache directory fails. */
  datatype Extraction = Written | ClipError | MissingParent

  /** `extract_audio` as written: when the cache directory is missing it
      calls `os.mkdir` on the audio path itself, whose parent is the missing
      directory, so the call raises. */
  function ExtractAsWritten(clipOpens: bool, cacheExists: bool): (r: Extraction)
    ensures r == Written <==> clipOpens && cacheExists
    ensures clipOpens && !cacheExists ==> r == MissingParent
  {
    if !clipOpens then ClipError
    else if !cacheExists then MissingParent
    else Written
  }

  /** `extract_audio` creating the directory of the audio path when it is
      missing, as its check on that directory intends. */
  function ExtractAudio(clipOpens: bool, cacheExists: bool): (r: Extraction)
    ensures r == Written <==> clipOpens
    ensures r != Written ==> r == ClipError
  {
    if !clipOpens then ClipError
    else Written
  }

  /** Without a `cache` directory the code as written never extracts a
      clip, while the intended one does. */
  lemma FreshCacheDiffers()
    ensures ExtractAsWritten(true, false) == MissingParent
    ensures ExtractAudio(true, false) == Written
  {
  }

  // --- Opening a clip ----------------------------------------------------------------

  /** The files the front ends open, by path: whether the clip at a video
      path opens for audio extraction, whether the cache directory exists,
      what the video path holds, and what the cached audio path holds. */
  datatype Media = Media(
    clipOpens: string -> bool,
    cacheExists: bool,
    videoAt: string -> VideoSource,
    audioAt: string -> AudioSource)

  /** `extract_audio(path, AudioPath(path))` succeeds, as the code is
      written: the clip opens and the cache directory is already there. */
  predicate Extracts(media: Media, path: string) {
    ExtractAsWritten(media.clipOpens(path), media.cacheExists) == Written
  }

  /** The intended extraction behaves as the written one does once the
      cache directory exists, whatever the directory's state beforehand. */
  lemma IntendedIsCachePresent(clipOpens: bool, cacheExists: bool)
    ensures ExtractAudio(clipOpens, cacheExists) == ExtractAsWritten(clipOpens, true)
  {
  }

  /** Everything about a clip at `path` that lets it play. */
  predicate Playable(media: Media, path: string) {
    && Extracts(media, path)
    && media.videoAt(path).VideoStream?
    && media.audioAt(AudioPath(path)).WavFile?
  }

  /** The constructor steps shared by `App` and `StartPage`: extract the
      audio, open the video, open the audio, compute the ratio, start
      playing, and run `update` once. */
  function Launch(path: string, media: Media): (r: Result<Engine, Error>)
    ensures r.Success? <==> Playable(media, path) && media.videoAt(path).fps != 0
    ensures !Extracts(media, path) ==> r == Failure(ExtractError)
    ensures r.Success? ==> media.cacheExists && media.clipOpens(path)
    ensures Extracts(media, path) && media.videoAt(path).Unopenable? ==> r == Failure(VideoOpenError)
    ensures Extracts(media, path) && media.videoAt(path).VideoStream? && media.audioAt(AudioPath(path)).Unreadable? ==>
              r == Failure(AudioOpenError)
    ensures Playable(media, path) && media.videoAt(path).fps == 0 ==> r == Failure(ZeroDivisionError)
    ensures r.Success? ==> r.value.playing && |r.value.trace| > 0
  {
    if !Extracts(media, path) then Failure(ExtractError)
    else
      var video :- OpenVideo(media.videoAt(path));
      var audio :- OpenAudio(media.audioAt(AudioPath(path)));
      var ratio :- Ratio(audio.fps, video.fps);
      Success(Tick(Engine(video, audio, ratio, true, [])))
  }

  /** Without a `cache` directory no clip ever launches: the written
      extraction raises before any player is opened. */
  lemma LaunchNeedsCache(path: string, media: Media)
    requires !media.cacheExists
    ensures Launch(path, media) == Failure(ExtractError)
  {
  }

  /** The front ends with the intended extraction: launching succeeds when
      the clip opens, whether or not the cache directory was there. */
  lemma LaunchIntended(path: string, media: Media)
    ensures var m := media.(cacheExists := true);
            Launch(path, m).Success? <==>
              && ExtractAudio(media.clipOpens(path), media.cacheExists) == Written
              && media.videoAt(path).VideoStream? && media.audioAt(AudioPath(path)).WavFile?
              && media.videoAt(path).fps != 0
  {
    IntendedIsCachePresent(media.clipOpens(path), media.cacheExists);
  }

  /** A launched clip plays at the ratio of the audio and video frame
      rates, and its engine is one tick past the freshly opened players. */
  lemma LaunchEngine(path: string, media: Media)
    requires Launch(path, media).Success?
    ensures var e := Launch(path, media).value;
            var v := media.videoAt(path);
            var a := media.audioAt(AudioPath(path));
            && e.ratio * v.fps <= a.fps < (e.ratio + 1) * v.fps
            && e == Tick(Engine(OpenVideo(v).value, OpenAudio(a).value, e.ratio, true, []))
  {
  }

  // --- video.py: App ------------------------------------------------------------------

  /** `App`: the downloaded shorts, the index of the one playing, the engine. */
  datatype App = App(shorts: seq<string>, index: nat, engine: Engine)

  /** `App.__init__`: play the first short; an empty playlist raises. */
  function CreateApp(shorts: seq<string>, media: Media): (r: Result<App, Error>)
    ensures |shorts| == 0 ==> r == Failure(IndexError)
    ensures r.Success? <==> |shorts| > 0 && Launch(shorts[0], media).Success?
    ensures r.Success? ==> r.value.index == 0 && r.value.shorts == shorts && r.value.engine.playing
    ensures r.Success? ==> r.value.engine == Launch(shorts[0], media).value
    ensures |shorts| > 0 && Launch(shorts[0], media).Failure? ==> r == Failure(Launch(shorts[0], media).error)
  {
    if |shorts| == 0 then Failure(IndexError)
    else
      var engine :- Launch(shorts[0], media);
      Success(App(shorts, 0, engine))
  }

  /** `next_video`, run as a Tk callback: Tk reports an exception and keeps
      the application running, so every assignment made before the raise
      stays. The index is bumped first, then the video player, then the
      audio player is replaced; the ratio is not recomputed. */
  function NextVideo(app: App, media: Media): (r: (App, Option<Error>))
    ensures r.0.index == app.index + 1 && r.0.shorts == app.shorts
    ensures r.0.engine.ratio == app.engine.ratio && r.0.engine.playing == app.engine.playing
    ensures r.0.engine.trace == app.engine.trace
    ensures r.1.None? <==> app.index + 1 < |app.shorts| && Playable(media, app.shorts[app.index + 1])
    ensures app.index + 1 >= |app.shorts| ==> r.1 == Some(IndexError) && r.0.engine == app.engine
    ensures r.1.None? ==>
              && r.0.engine.video == OpenVideo(media.videoAt(app.shorts[app.index + 1])).value
              && r.0.engine.audio == OpenAudio(media.audioAt(AudioPath(app.shorts[app.index + 1]))).value
    ensures app.index + 1 < |app.shorts| && !Extracts(media, app.shorts[app.index + 1]) ==>
              r.1 == Some(ExtractError) && r.0.engine == app.engine
    ensures app.index + 1 < |app.shorts| && Extracts(media, app.shorts[app.index + 1]) ==>
              var v := OpenVideo(media.videoAt(app.shorts[app.index + 1]));
              v.Failure? ==> r.1 == Some(v.error) && r.0.engine == app.engine
    ensures app.index + 1 < |app.shorts| && Extracts(media, app.shorts[app.index + 1]) ==>
              var path := app.shorts[app.index + 1];
              var v := OpenVideo(media.videoAt(path));
              var a := OpenAudio(media.audioAt(AudioPath(path)));
              v.Success? && a.Failure? ==> r.1 == Some(a.error) && r.0.engine == app.engine.(video := v.value)
  {
    var bumped := app.(index := app.index + 1);
    if bumped.index >= |app.shorts| then (bumped, Some(IndexError))
    else
      var path := app.shorts[bumped.index];
      if !Extracts(media, path) then (bumped, Some(ExtractError))
      else
        match OpenVideo(media.videoAt(path))
        case Failure(e) => (bumped, Some(e))
        case Success(video) =>
          var swapped := bumped.(engine := bumped.engine.(video := video));
          match OpenAudio(media.audioAt(AudioPath(path)))
          case Failure(e) => (swapped, Some(e))
          case Success(audio) => (swapped.(engine := swapped.engine.(audio := audio)), None)
  }

  /** Past the last short the index keeps growing and every further
      `next_video` raises `IndexError` without touching the players. */
  lemma {:induction false} NextVideoPastEnd(app: App, media: Media, k: nat)
    requires app.index + 1 >= |app.shorts|
    ensures NextVideos(app, media, k).index == app.index + k
    ensures NextVideos(app, media, k).engine == app.engine
    decreases k
  {
    if k > 0 {
      NextVideoPastEnd(NextVideo(app, media).0, media, k - 1);
    }
  }

  /** `k` presses of `>>>`. */
  function NextVideos(app: App, media: Media, k: nat): App
    decreases k
  {
    if k == 0 then app else NextVideos(NextVideo(app, media).0, media, k - 1)
  }

  /** The buttons: `DOWNLOAD`, `>>>` and `PLAY/PAUSE`. */
  datatype Button = Download | Next | PlayPause

  /** A button press in video.py: `>>>` is `next_video`, `PLAY/PAUSE` is
      `toggle_play_pause`, `DOWNLOAD` only clears the search box. */
  function PressApp(app: App, b: Button, media: Media): (r: (App, Option<Error>))
    ensures b == PlayPause ==> r == (app.(engine := Toggle(app.engine)), None)
    ensures b == Download ==> r == (app, None)
    ensures b == Next ==> r.0.index == app.index + 1
    ensures b == Next ==> r == NextVideo(app, media)
  {
    match b
    case Download => (app, None)
    case Next => NextVideo(app, media)
    case PlayPause => (app.(engine := Toggle(app.engine)), None)
  }

  // --- tktest.py: StartPage -------------------------------------------------------------

  /** The one file `StartPage` plays. */
  const FixedVideoPath := "/home/julian/Downloads/sun.mp4"

  /** `StartPage.__init__`: the engine for the fixed file. */
  function CreateStartPage(media: Media): (r: Result<Engine, Error>)
    ensures r.Success? <==> Playable(media, FixedVideoPath) && media.videoAt(FixedVideoPath).fps != 0
    ensures r.Success? ==> r.value.playing
    ensures r == Launch(FixedVideoPath, media)
  {
    Launch(FixedVideoPath, media)
  }

  /** The start page plays its file exactly as `App` would play a playlist
      holding only that file. */
  lemma StartPageLikeApp(media: Media)
    ensures CreateStartPage(media).Success? <==> CreateApp([FixedVideoPath], media).Success?
    ensures CreateStartPage(media).Success? ==> CreateStartPage(media).value == CreateApp([FixedVideoPath], media).value.engine
    ensures CreateStartPage(media).Failure? ==> CreateStartPage(media).error == CreateApp([FixedVideoPath], media).error
  {
  }

  /** A button press in tktest.py: `>>>` is wired to `toggle_play_pause`
      like `PLAY/PAUSE`; `next_video` exists but is `pass` and no button
      calls it. */
  function PressStartPage(e: Engine, b: Button): (r: Engine)
    ensures b == Download ==> r == e
    ensures b != Download ==> r == Toggle(e)
  {
    match b
    case Download => e
    case Next => Toggle(e)
    case PlayPause => Toggle(e)
  }

  function PressAllStartPage(e: Engine, bs: seq<Button>): Engine
    decreases |bs|
  {
    if |bs| == 0 then e else PressAllStartPage(PressStartPage(e, bs[0]), bs[1..])
  }

  /** Presses that are not `DOWNLOAD`. */
  function Toggles(bs: seq<Button>): nat
    decreases |bs|
  {
    if |bs| == 0 then 0 else (if bs[0] != Download then 1 else 0) + Toggles(bs[1..])
  }

  /** Whatever buttons are pressed in tktest.py, the same players, ratio and
      requests remain; only the play flag flips, once per `>>>` or
      `PLAY/PAUSE` press. */
  lemma {:induction false} StartPageButtons(e: Engine, bs: seq<Button>)
    ensures PressAllStartPage(e, bs) == e.(playing := if Toggles(bs) % 2 == 0 then e.playing else !e.playing)
    decreases |bs|
  {
    if |bs| > 0 {
      StartPageButtons(PressStartPage(e, bs[0]), bs[1..]);
    }
  }
}

=== FILE: article_json.dfy ===
/** `_is_article_html` (travel_articles.py): does a fetched page look like
    an article? HTML parsing is left to the parser; this module sees what
    the parser reports and the JSON-LD values it decoded. */
module ArticleJson {
  import opened Outcomes

  /** A value as `json.loads` returns it. Numbers are integers here. */
  datatype Json =
    | JNull
    | JBool(b: bool)
    | JNum(n: int)
    | JStr(s: string)
    | JArr(items: seq<Json>)
    | JObj(fields: seq<(string, Json)>)

  /** Python truthiness of a decoded value. */
  predicate Truthy(v: Json) {
    match v
    case JNull => false
    case JBool(b) => b
    case JNum(n) => n != 0
    case JStr(s) => s != ""
    case JArr(items) => items != []
    case JObj(fields) => fields != []
  }

  /** `d.get(key)` on a decoded object; of repeated keys the last one
      counts, as `json.loads` keeps the last. */
  function Get(fields: seq<(string, Json)>, key: string): (r: Option<Json>)
    ensures r.Some? ==> (key, r.value) in fields
    ensures r.None? <==> forall i :: 0 <= i < |fields| ==> fields[i].0 != key
    decreases |fields|
  {
    if |fields| == 0 then None
    else
      var last := fields[|fields| - 1];
      if last.0 == key then Some(last.1)
      else
        var init := fields[..|fields| - 1];
        assert forall i :: 0 <= i < |init| ==> fields[i] == init[i];
        Get(init, key)
  }

  /** Of repeated keys the lookup answers with the last pair's value. */
  lemma {:induction false} GetLast(fields: seq<(string, Json)>, key: string)
    requires Get(fields, key).Some?
    ensures exists i :: 0 <= i < |fields| && fields[i] == (key, Get(fields, key).value)
                        && forall j :: i < j < |fields| ==> fields[j].0 != key
    decreases |fields|
  {
    var last := fields[|fields| - 1];
    if last.0 == key {
      assert fields[|fields| - 1] == (key, Get(fields, key).value);
    } else {
      var init := fields[..|fields| - 1];
      assert Get(fields, key) == Get(init, key);
      var v := Get(init, key).value;
      GetLast(init, key);
      var i :| 0 <= i < |init| && init[i] == (key, v) && forall j :: i < j < |init| ==> init[j].0 != key;
      forall j | i < j < |fields|
        ensures fields[j].0 != key
      {
        if j < |init| {
          assert fields[j] == init[j];
        }
      }
      assert fields[i] == (key, v);
    }
  }

  /** A decoded object that declares an article: `@type` is "Article", or
      it carries a truthy `articleBody`. */
  predicate ArticleDict(fields: seq<(string, Json)>) {
    Get(fields, "@type") == Some(JStr("Article"))
    || (Get(fields, "articleBody").Some? && Truthy(Get(fields, "articleBody").value))
  }

  predicate IsArticleDict(v: Json) {
    v.JObj? && ArticleDict(v.fields)
  }

  /** Scans a decoded list for an item that is an article object. */
  function AnyArticleDict(items: seq<Json>): (r: bool)
    ensures r <==> exists i :: 0 <= i < |items| && IsArticleDict(items[i])
    decreases |items|
  {
    if |items| == 0 then false
    else
      assert forall i :: 1 <= i < |items| ==> items[i] == items[1..][i - 1];
      IsArticleDict(items[0]) || AnyArticleDict(items[1..])
  }

  /** One JSON-LD block counts as article evidence: an article object, or a
      list with an article object among its direct items. */
  function ArticleEvidence(v: Json): (r: bool)
    ensures r <==> IsArticleDict(v) || (v.JArr? && exists i :: 0 <= i < |v.items| && IsArticleDict(v.items[i]))
  {
    match v
    case JObj(fields) => ArticleDict(fields)
    case JArr(items) => AnyArticleDict(items)
    case _ => false
  }

  /** One `<script type="application/ld+json">` block: text that failed to
      decode, or the decoded value (a block without text decodes as `{}`). */
  datatype LdScript = Undecodable | Decoded(value: Json)

  /** What the HTML parser reports about a page. */
  datatype HtmlFacts = HtmlFacts(hasArticleTag: bool, hasTextBlock: bool, scripts: seq<LdScript>)

  function AnyEvidence(scripts: seq<LdScript>): (r: bool)
    ensures r <==> exists i :: 0 <= i < |scripts| && scripts[i].Decoded? && ArticleEvidence(scripts[i].value)
    decreases |scripts|
  {
    if |scripts| == 0 then false
    else
      assert forall i :: 1 <= i < |scripts| ==> scripts[i] == scripts[1..][i - 1];
      (scripts[0].Decoded? && ArticleEvidence(scripts[0].value)) || AnyEvidence(scripts[1..])
  }

  /** `_is_article_html`: an `<article>` element, a text-block `div`, or a
      JSON-LD block that declares an article; undecodable blocks are
      skipped. */
  function IsArticleHtml(h: HtmlFacts): (r: bool)
    ensures r <==> h.hasArticleTag || h.hasTextBlock
                   || exists i :: 0 <= i < |h.scripts| && h.scripts[i].Decoded? && ArticleEvidence(h.scripts[i].value)
  {
    h.hasArticleTag || h.hasTextBlock || AnyEvidence(h.scripts)
  }

  /** Only direct items of a list are looked at: an article object nested
      one list deeper is not evidence. */
  lemma NestedListIgnored(fields: seq<(string, Json)>)
    ensures !ArticleEvidence(JArr([JArr([JObj(fields)])]))
    ensures ArticleEvidence(JArr([JObj(fields)])) == ArticleEvidence(JObj(fields))
  {
  }

  /** A repeated key is read from its last occurrence. */
  lemma {:induction false} LastKeyWins(fields: seq<(string, Json)>, key: string, v: Json)
    ensures Get(fields + [(key, v)], key) == Some(v)
  {
  }
}

=== FILE: articles.dfy ===
/** The BBC Travel search of travel_articles.py: collecting candidate
    links from the home page, then filtering and formatting the article
    pages. Fetching, HTML parsing and `urljoin` are inputs: the hrefs the
    parser found, a join function, and what each candidate page yielded. */
module Articles {
  import opened Outcomes
  import opened Strings
  import opened ArticleJson

  const MaxLinks := 30
  const MinTextLength := 300
  const ExcerptLength := 1000

  // --- Link collection ----------------------------------------------------------

  /** `href.split("#", 1)[0]`: everything before the first `#`. */
  function CutFragment(href: string): (r: string)
    ensures IsPrefix(r, href)
    ensures '#' !in r
    ensures |r| < |href| ==> href[|r|] == '#'
    decreases |href|
  {
    if |href| == 0 || href[0] == '#' then ""
    else [href[0]] + CutFragment(href[1..])
  }

  /** The joined URL an anchor contributes, if its href is truthy. */
  function Candidate(href: Option<string>, join: string -> string): seq<string> {
    if href.Some? && href.value != "" then [join(CutFragment(href.value))] else []
  }

  /** The joined URLs of all anchors with a truthy href, in page order. */
  function Candidates(hrefs: seq<Option<string>>, join: string -> string): seq<string>
    decreases |hrefs|
  {
    if |hrefs| == 0 then []
    else Candidates(hrefs[..|hrefs| - 1], join) + Candidate(hrefs[|hrefs| - 1], join)
  }

  predicate NoDuplicates(xs: seq<string>) {
    forall i, j :: 0 <= i < j < |xs| ==> xs[i] != xs[j]
  }

  /** The distinct elements of `xs` in order of first appearance. */
  function Dedup(xs: seq<string>): (r: seq<string>)
    ensures NoDuplicates(r)
    ensures forall x :: x in r <==> x in xs
    decreases |xs|
  {
    if |xs| == 0 then []
    else
      var d := Dedup(xs[..|xs| - 1]);
      var x := xs[|xs| - 1];
      assert xs == xs[..|xs| - 1] + [x];
      if x in d then d else d + [x]
  }

  lemma {:induction false} CandidatesPrefix(hrefs: seq<Option<string>>, n: nat, join: string -> string)
    requires n <= |hrefs|
    ensures |Candidates(hrefs[..n], join)| <= |Candidates(hrefs, join)|
    ensures Candidates(hrefs[..n], join) == Candidates(hrefs, join)[..|Candidates(hrefs[..n], join)|]
    decreases |hrefs|
  {
    if n < |hrefs| {
      var init := hrefs[..|hrefs| - 1];
      assert init[..n] == hrefs[..n];
      CandidatesPrefix(init, n, join);
    } else {
      assert hrefs[..n] == hrefs;
    }
  }

  /** Extending a sequence only appends to its de-duplication. */
  lemma {:induction false} DedupPrefix(xs: seq<string>, n: nat)
    requires n <= |xs|
    ensures |Dedup(xs[..n])| <= |Dedup(xs)|
    ensures Dedup(xs[..n]) == Dedup(xs)[..|Dedup(xs[..n])|]
    decreases |xs|
  {
    if n < |xs| {
      var init := xs[..|xs| - 1];
      assert init[..n] == xs[..n];
      DedupPrefix(init, n);
    } else {
      assert xs[..n] == xs;
    }
  }

  /** One more anchor adds at most its own candidate. */
  lemma CandidatesStep(hrefs: seq<Option<string>>, i: nat, join: string -> string)
    requires i < |hrefs|
    ensures Candidates(hrefs[..i + 1], join) == Candidates(hrefs[..i], join) + Candidate(hrefs[i], join)
  {
    assert hrefs[..i + 1][..i] == hrefs[..i];
  }

  /** De-duplicating one more element appends it unless already present. */
  lemma DedupStep(xs: seq<string>, ys: seq<string>)
    requires |ys| <= 1
    ensures |ys| == 0 ==> Dedup(xs + ys) == Dedup(xs)
    ensures |ys| == 1 ==> Dedup(xs + ys) == if ys[0] in Dedup(xs) then Dedup(xs) else Dedup(xs) + ys
  {
    if |ys| == 0 {
      assert xs + ys == xs;
    } else {
      assert (xs + ys)[..|xs + ys| - 1] == xs;
    }
  }

  /** When the loop stops, its links are the first 30 distinct candidates. */
  lemma CollectDone(hrefs: seq<Option<string>>, i: nat, join: string -> string, links: seq<string>)
    requires i <= |hrefs|
    requires links == Dedup(Candidates(hrefs[..i], join))
    requires |links| <= MaxLinks
    requires i == |hrefs| || |links| == MaxLinks
    ensures links == Prefix(Dedup(Candidates(hrefs, join)), MaxLinks)
  {
    if i == |hrefs| {
      assert hrefs[..i] == hrefs;
    } else {
      CandidatesPrefix(hrefs, i, join);
      DedupFull(Candidates(hrefs, join), Candidates(hrefs[..i], join));
    }
  }

  /** Once the de-duplication of a prefix reaches the cap, it is the capped
      de-duplication of the whole. */
  lemma DedupFull(all: seq<string>, part: seq<string>)
    requires |part| <= |all| && part == all[..|part|]
    requires |Dedup(part)| == MaxLinks
    ensures Dedup(part) == Prefix(Dedup(all), MaxLinks)
  {
    DedupPrefix(all, |part|);
    assert all[..|part|] == part;
  }

  /** The link-collection loop of lines 86-98: skip empty hrefs, cut the
      fragment, join, drop URLs already seen, stop at 30. */
  method CollectLinks(hrefs: seq<Option<string>>, join: string -> string) returns (links: seq<string>)
    ensures links == Prefix(Dedup(Candidates(hrefs, join)), MaxLinks)
    ensures NoDuplicates(links) && |links| <= MaxLinks
    ensures forall l :: l in links ==> exists i :: 0 <= i < |hrefs| && hrefs[i].Some? && hrefs[i].value != ""
                                                   && l == join(CutFragment(hrefs[i].value))
  {
    links := [];
    var seen: set<string> := {};
    var i := 0;
    while i < |hrefs| && |links| < MaxLinks
      invariant 0 <= i <= |hrefs|
      invariant links == Dedup(Candidates(hrefs[..i], join))
      invariant forall x :: x in seen <==> x in links
      invariant |links| <= MaxLinks
    {
      CandidatesStep(hrefs, i, join);
      DedupStep(Candidates(hrefs[..i], join), Candidate(hrefs[i], join));
      var href := hrefs[i];
      if href.Some? && href.value != "" {
        var full := join(CutFragment(href.value));
        if full !in seen {
          seen := seen + {full};
          links := links + [full];
        }
      }
      i := i + 1;
    }
    CollectDone(hrefs, i, join, links);
    CandidatesFrom(hrefs, join);
    assert forall l :: l in links ==> l in Dedup(Candidates(hrefs, join));
  }

  /** Every candidate URL comes from a truthy href. */
  lemma {:induction false} CandidatesFrom(hrefs: seq<Option<string>>, join: string -> string)
    ensures forall l :: l in Candidates(hrefs, join) ==>
              exists i :: 0 <= i < |hrefs| && hrefs[i].Some? && hrefs[i].value != "" && l == join(CutFragment(hrefs[i].value))
    decreases |hrefs|
  {
    if |hrefs| > 0 {
      var init := hrefs[..|hrefs| - 1];
      CandidatesFrom(init, join);
      assert forall i :: 0 <= i < |init| ==> init[i] == hrefs[i];
    }
  }

  // --- Filtering and formatting ---------------------------------------------------

  /** What one candidate link yielded: the page could not be fetched, or it
      was fetched, parsed into `html`, and `get_article_text` returned `text`. */
  datatype Page = FetchFailed | Fetched(html: HtmlFacts, text: string)

  datatype Visit = Visit(link: string, page: Page)

  /** `not text or len(text) < 300` rejects the page. */
  predicate LongEnough(text: string) {
    text != "" && |text| >= MinTextLength
  }

  predicate Excluded(link: string) {
    Contains(link, "cultural-experiences") || Contains(link, "worlds-table") || Contains(link, "/destinations/")
  }

  /** The search term, already lower-cased, matches a page's text. */
  predicate Matches(termLower: string, text: string) {
    termLower == "" || Contains(Lower(text), termLower)
  }

  /** A visited link that produces a result. */
  predicate Kept(v: Visit, termLower: string) {
    && v.page.Fetched?
    && IsArticleHtml(v.page.html)
    && LongEnough(v.page.text)
    && !Excluded(v.link)
    && Matches(termLower, v.page.text)
  }

  /** The characters of the excerpt: the whole text up to 1000. */
  function ExcerptSize(text: string): (n: nat)
    ensures n <= |text| && n <= ExcerptLength
    ensures n == |text| || n == ExcerptLength
  {
    if |text| < ExcerptLength then |text| else ExcerptLength
  }

  const EntryTail := "...\n\n" + Repeat('=', 80) + "\n\n"

  /** One result: URL, full length, the first 1000 characters, a rule. */
  function Entry(link: string, text: string): (r: string)
    ensures IsPrefix("URL: " + link + "\n", r)
    ensures var head := "URL: " + link + "\nLength: " + Decimal(|text|) + "\n\n";
            && IsPrefix(head, r)
            && |r| == |head| + ExcerptSize(text) + |EntryTail|
            && r[|head|..|head| + ExcerptSize(text)] == text[..ExcerptSize(text)]
            && IsSuffix(EntryTail, r)
  {
    var head := "URL: " + link + "\nLength: " + Decimal(|text|) + "\n\n";
    var r := head + Prefix(text, ExcerptLength) + EntryTail;
    assert r[..|"URL: " + link + "\n"|] == "URL: " + link + "\n";
    assert r[..|head|] == head;
    assert r[|head|..|head| + ExcerptSize(text)] == Prefix(text, ExcerptLength);
    r
  }

  /** The length line of an entry reads back as the length of the full text. */
  lemma EntryLengthField(link: string, text: string)
    ensures var r := Entry(link, text);
            var start := |"URL: " + link + "\nLength: "|;
            var n := |Decimal(|text|)|;
            && IsPrefix("URL: " + link + "\nLength: ", r)
            && start + n + 2 <= |r|
            && var field := r[start..start + n];
               && r[start + n..start + n + 2] == "\n\n"
               && field == Decimal(|text|)
               && DecimalValue(field) == |text|
  {
    var lead := "URL: " + link + "\nLength: ";
    assert "URL: " + link + "\nLength: " + Decimal(|text|) + "\n\n" == lead + Decimal(|text|) + "\n\n";
    LengthField(lead, |text|, Entry(link, text));
  }

  /** A prefix `lead + str(n) + "\n\n"` puts digits reading back as `n`
      right after `lead`. */
  lemma LengthField(lead: string, n: nat, r: string)
    requires IsPrefix(lead + Decimal(n) + "\n\n", r)
    ensures IsPrefix(lead, r) && |lead| + |Decimal(n)| + 2 <= |r|
    ensures var field := r[|lead|..|lead| + |Decimal(n)|];
            && r[|lead| + |Decimal(n)|..|lead| + |Decimal(n)| + 2] == "\n\n"
            && field == Decimal(n)
            && DecimalValue(field) == n
  {
    NumberField(lead, n, "\n\n", r);
  }

  /** The results of the visits, in visiting order. */
  function Results(visits: seq<Visit>, termLower: string): (rs: seq<string>)
    ensures |rs| <= |visits|
    decreases |visits|
  {
    if |visits| == 0 then []
    else
      var v := visits[0];
      var rest := Results(visits[1..], termLower);
      if Kept(v, termLower) then [Entry(v.link, v.page.text)] + rest else rest
  }

  /** There are no results exactly when no visit is kept. */
  lemma {:induction false} ResultsEmptyIff(visits: seq<Visit>, termLower: string)
    ensures Results(visits, termLower) == [] <==> forall i :: 0 <= i < |visits| ==> !Kept(visits[i], termLower)
    decreases |visits|
  {
    if |visits| > 0 {
      ResultsEmptyIff(visits[1..], termLower);
      assert forall i :: 1 <= i < |visits| ==> visits[i] == visits[1..][i - 1];
    }
  }

  /** Every result is the entry of a visit that passed every filter. */
  lemma {:induction false} ResultsFromKept(visits: seq<Visit>, termLower: string)
    ensures forall e :: e in Results(visits, termLower) ==>
              exists i :: 0 <= i < |visits| && Kept(visits[i], termLower) && e == Entry(visits[i].link, visits[i].page.text)
    decreases |visits|
  {
    if |visits| > 0 {
      var rest := visits[1..];
      ResultsFromKept(rest, termLower);
      forall e | e in Results(visits, termLower)
        ensures exists i :: 0 <= i < |visits| && Kept(visits[i], termLower) && e == Entry(visits[i].link, visits[i].page.text)
      {
        if Kept(visits[0], termLower) && e == Entry(visits[0].link, visits[0].page.text) {
        } else {
          assert e in Results(rest, termLower);
          var j :| 0 <= j < |rest| && Kept(rest[j], termLower) && e == Entry(rest[j].link, rest[j].page.text);
          assert rest[j] == visits[j + 1];
        }
      }
    }
  }

  /** Results of consecutive runs of visits are concatenated, so results
      appear in link order. */
  lemma {:induction false} ResultsAppend(a: seq<Visit>, b: seq<Visit>, termLower: string)
    ensures Results(a + b, termLower) == Results(a, termLower) + Results(b, termLower)
    decreases |a|
  {
    if |a| == 0 {
      assert a + b == b;
    } else {
      assert (a + b)[1..] == a[1..] + b;
      ResultsAppend(a[1..], b, termLower);
    }
  }

  /** A single visit yields its entry exactly when it is kept. */
  lemma ResultsSingle(v: Visit, termLower: string)
    ensures Kept(v, termLower) ==> Results([v], termLower) == [Entry(v.link, v.page.text)]
    ensures !Kept(v, termLower) ==> Results([v], termLower) == []
  {
    assert [v][1..] == [];
  }

  function NoArticlesMessage(term: string): string {
    "No articles found matching '" + term + "'."
  }

  /** The report of the filter loop over the visited candidate pages. */
  function ArticlesReport(term: string, visits: seq<Visit>): (r: string)
    ensures r == NoArticlesMessage(term) <==> forall i :: 0 <= i < |visits| ==> !Kept(visits[i], Lower(term))
    ensures (exists i :: 0 <= i < |visits| && Kept(visits[i], Lower(term))) ==> IsPrefix("URL: ", r)
    ensures Results(visits, Lower(term)) != [] ==> r == Concat(Results(visits, Lower(term)))
  {
    var rs := Results(visits, Lower(term));
    ResultsEmptyIff(visits, Lower(term));
    if rs == [] then NoArticlesMessage(term)
    else
      var r := Concat(rs);
      assert r == rs[0] + Concat(rs[1..]);
      assert rs[0] in Results(visits, Lower(term));
      assert IsPrefix("URL: ", rs[0]) by {
        ResultEntries(visits, Lower(term));
      }
      assert r[0] == rs[0][0] == 'U';
      assert NoArticlesMessage(term)[0] == 'N';
      r
  }

  /** Two runs of visits that both find articles give the two reports one
      after the other. */
  lemma ArticlesReportAppend(term: string, a: seq<Visit>, b: seq<Visit>)
    requires exists i :: 0 <= i < |a| && Kept(a[i], Lower(term))
    requires exists i :: 0 <= i < |b| && Kept(b[i], Lower(term))
    ensures ArticlesReport(term, a + b) == ArticlesReport(term, a) + ArticlesReport(term, b)
  {
    ResultsAppend(a, b, Lower(term));
    ConcatAppend(Results(a, Lower(term)), Results(b, Lower(term)));
  }

  /** The start of the message returned when the homepage request raises. */
  const ConnectError := "Error: Could not connect to BBC Travel. "

  /** `fetch_articles(search_term)`. `home` is the homepage reply: the
      candidate pages its links lead to, or the text of the request error. */
  function FetchArticles(term: string, home: Result<seq<Visit>, string>): (r: string)
    ensures home.Failure? ==> r == ConnectError + home.error
    ensures home.Success? ==> r == ArticlesReport(term, home.value)
    ensures |r| > 0 && (r[0] == 'E' <==> home.Failure?)
  {
    match home
    case Failure(e) =>
      assert (ConnectError + e)[0] == 'E';
      ConnectError + e
    case Success(visits) =>
      var r := ArticlesReport(term, visits);
      assert r[0] != 'E' by {
        if forall i :: 0 <= i < |visits| ==> !Kept(visits[i], Lower(term)) {
          assert r[0] == NoArticlesMessage(term)[0] == 'N';
        } else {
          assert r[..5] == "URL: ";
          assert r[0] == 'U';
        }
      }
      r
  }

  /** Every result is an entry, so it starts with "URL: ". */
  lemma {:induction false} ResultEntries(visits: seq<Visit>, termLower: string)
    ensures forall e :: e in Results(visits, termLower) ==> IsPrefix("URL: ", e)
    decreases |visits|
  {
    if |visits| > 0 {
      ResultEntries(visits[1..], termLower);
      if Kept(visits[0], termLower) {
        var e := Entry(visits[0].link, visits[0].page.text);
        assert e[..5] == ("URL: " + visits[0].link + "\n")[..5];
      }
    }
  }

  /** With a blank search term every page that passes the other filters
      matches; otherwise the lower-cased term must occur in the lower-cased
      text. */
  lemma TermMatching(v: Visit, term: string)
    requires v.page.Fetched? && IsArticleHtml(v.page.html) && LongEnough(v.page.text) && !Excluded(v.link)
    ensures term == "" ==> Kept(v, Lower(term))
    ensures term != "" ==> (Kept(v, Lower(term)) <==> exists i :: OccursAt(Lower(v.page.text), Lower(term), i))
  {
    ContainsIff(Lower(v.page.text), Lower(term));
  }
}

=== FILE: books.dfy ===
/** The decision logic of offline_books.py around the network: the search
    request and its post-processing, what `download_books` derives for each
    book, and the text report built from the saved index. */
module Books {
  import opened Outcomes
  import opened Strings
  import opened Formats
  import opened SafeNames

  datatype Author = Author(name: Option<string>)

  /** One Gutendex book record: the fields the script reads. */
  datatype Book = Book(
    id: Option<nat>,
    title: Option<string>,
    authors: seq<Author>,
    subjects: seq<string>,
    formats: FormatMap)

  /** Python truthiness of an optional string. */
  predicate Truthy(s: Option<string>) {
    s.Some? && s.value != ""
  }

  // --- Search -----------------------------------------------------------------

  const DefaultLanguage := "en"
  const NovelTerm := "novel"

  /** `lang if lang else "en"` */
  function Language(lang: string): (r: string)
    ensures r != ""
    ensures lang != "" ==> r == lang
    ensures lang == "" ==> r == DefaultLanguage
  {
    if lang != "" then lang else DefaultLanguage
  }

  function AuthorTerm(author: string): string {
    "author:\"" + author + "\""
  }

  /** The search terms, each present only when set: query, author, "novel". */
  function SearchTerms(query: Option<string>, author: Option<string>, requireNovel: bool): (ts: seq<string>)
    ensures |ts| == (if Truthy(query) then 1 else 0) + (if Truthy(author) then 1 else 0) + (if requireNovel then 1 else 0)
    ensures Truthy(query) ==> ts[0] == query.value
    ensures Truthy(author) ==> AuthorTerm(author.value) in ts
    ensures Truthy(author) ==> ts[if Truthy(query) then 1 else 0] == AuthorTerm(author.value)
    ensures requireNovel ==> ts[|ts| - 1] == NovelTerm
    ensures forall i :: 0 <= i < |ts| ==> ts[i] != ""
  {
    (if Truthy(query) then [query.value] else [])
    + (if Truthy(author) then [AuthorTerm(author.value)] else [])
    + (if requireNovel then [NovelTerm] else [])
  }

  /** The query parameters sent to Gutendex: `languages`, then `search` when
      there is at least one term; the parameters left `None` are dropped. */
  function SearchParams(query: Option<string>, author: Option<string>, lang: string, requireNovel: bool): (ps: seq<(string, string)>)
    ensures 1 <= |ps| <= 2 && ps[0] == ("languages", Language(lang))
    ensures |ps| == 2 <==> Truthy(query) || Truthy(author) || requireNovel
    ensures |ps| == 2 ==> ps[1] == ("search", Join(" ", SearchTerms(query, author, requireNovel))) && ps[1].1 != ""
    ensures Truthy(query) && Truthy(author) && requireNovel ==>
              ps[1].1 == query.value + " " + AuthorTerm(author.value) + " " + NovelTerm
    ensures Truthy(query) && !Truthy(author) && !requireNovel ==> ps[1].1 == query.value
  {
    var terms := SearchTerms(query, author, requireNovel);
    if |terms| == 0 then [("languages", Language(lang))]
    else
      assert Join(" ", terms) != "" by {
        JoinEmptyIff(" ", terms);
      }
      if Truthy(query) && Truthy(author) && requireNovel then
        assert terms == [query.value, AuthorTerm(author.value), NovelTerm];
        assert Join(" ", terms) == query.value + " " + Join(" ", terms[1..]);
        assert Join(" ", terms[1..]) == AuthorTerm(author.value) + " " + Join(" ", terms[2..]);
        [("languages", Language(lang)), ("search", Join(" ", terms))]
      else
      [("languages", Language(lang)), ("search", Join(" ", terms))]
  }

  /** The paging loop: `pages` are the server's successive result pages
      (the last one without a `next` link). Pages are taken while fewer
      than `limit` books are in hand. */
  function Collect(pages: seq<seq<Book>>, limit: int, acc: seq<Book>): (r: seq<Book>)
    ensures |r| >= |acc| && r[..|acc|] == acc
    ensures |acc| >= limit ==> r == acc
    ensures forall b :: b in r ==> b in acc || exists k :: 0 <= k < |pages| && b in pages[k]
    decreases |pages|
  {
    if |acc| < limit && |pages| > 0 then
      var r := Collect(pages[1..], limit, acc + pages[0]);
      assert forall k :: 1 <= k < |pages| ==> pages[k] == pages[1..][k - 1];
      r
    else acc
  }

  /** The pages the loop takes: the first `k` of them, where `k` is the
      first count at which `limit` books are in hand, or all pages when
      that count is never reached. */
  lemma CollectPages(pages: seq<seq<Book>>, limit: int, acc: seq<Book>)
    ensures exists k :: 0 <= k <= |pages| && Collect(pages, limit, acc) == acc + Concat(pages[..k])
                        && (k < |pages| ==> |acc + Concat(pages[..k])| >= limit)
                        && (forall j :: 0 <= j < k ==> |acc + Concat(pages[..j])| < limit)
  {
    var k := PagesTaken(pages, limit, acc);
    CollectTakes(pages, limit, acc);
    TakenStops(pages, limit, acc);
    forall j | 0 <= j < k
      ensures |acc + Concat(pages[..j])| < limit
    {
      TakenLeast(pages, limit, acc, j);
    }
  }

  /** How many pages the loop takes. */
  function PagesTaken(pages: seq<seq<Book>>, limit: int, acc: seq<Book>): (k: nat)
    ensures k <= |pages|
    decreases |pages|
  {
    if |acc| < limit && |pages| > 0 then 1 + PagesTaken(pages[1..], limit, acc + pages[0]) else 0
  }

  /** The loop's books are those in hand followed by the pages it takes. */
  lemma {:induction false} CollectTakes(pages: seq<seq<Book>>, limit: int, acc: seq<Book>)
    ensures Collect(pages, limit, acc) == acc + Concat(pages[..PagesTaken(pages, limit, acc)])
    decreases |pages|
  {
    if |acc| < limit && |pages| > 0 {
      var k := PagesTaken(pages[1..], limit, acc + pages[0]);
      CollectTakes(pages[1..], limit, acc + pages[0]);
      ConcatOfPrefix(pages, k);
      assert (acc + pages[0]) + Concat(pages[1..][..k]) == acc + (pages[0] + Concat(pages[1..][..k]));
    } else {
      assert pages[..0] == [];
    }
  }

  /** The loop stops early only once `limit` books are in hand. */
  lemma {:induction false} TakenStops(pages: seq<seq<Book>>, limit: int, acc: seq<Book>)
    ensures var k := PagesTaken(pages, limit, acc);
            k < |pages| ==> |acc + Concat(pages[..k])| >= limit
    decreases |pages|
  {
    if |acc| < limit && |pages| > 0 {
      var k := PagesTaken(pages[1..], limit, acc + pages[0]);
      TakenStops(pages[1..], limit, acc + pages[0]);
      if k < |pages[1..]| {
        ConcatOfPrefix(pages, k);
      }
    } else if |pages| > 0 {
      assert pages[..0] == [];
    }
  }

  /** Before the pages it takes, fewer than `limit` books were in hand. */
  lemma {:induction false} TakenLeast(pages: seq<seq<Book>>, limit: int, acc: seq<Book>, j: nat)
    requires j < PagesTaken(pages, limit, acc)
    ensures |acc + Concat(pages[..j])| < limit
    decreases j
  {
    if j == 0 {
      assert pages[..0] == [];
    } else {
      TakenLeast(pages[1..], limit, acc + pages[0], j - 1);
      ConcatOfPrefix(pages, j - 1);
    }
  }

  /** The first `j + 1` pages are the first page followed by the next `j`. */
  lemma ConcatOfPrefix(pages: seq<seq<Book>>, j: nat)
    requires j < |pages|
    ensures Concat(pages[..j + 1]) == pages[0] + Concat(pages[1..][..j])
  {
    assert pages[..j + 1] == [pages[0]] + pages[1..][..j];
  }

  /** Some subject mentions "novel", in any letter case. */
  predicate IsNovel(b: Book) {
    exists i :: 0 <= i < |b.subjects| && Contains(Lower(b.subjects[i]), NovelTerm)
  }

  /** The books with a novel subject, in their original order. */
  function Novels(bs: seq<Book>): (r: seq<Book>)
    ensures forall b :: b in r ==> b in bs && IsNovel(b)
    ensures forall b :: b in bs && IsNovel(b) ==> b in r
    ensures |r| <= |bs|
    decreases |bs|
  {
    if |bs| == 0 then []
    else if IsNovel(bs[0]) then [bs[0]] + Novels(bs[1..])
    else Novels(bs[1..])
  }

  /** Filtering distributes over concatenation, so order is kept. */
  lemma {:induction false} NovelsAppend(a: seq<Book>, b: seq<Book>)
    ensures Novels(a + b) == Novels(a) + Novels(b)
    decreases |a|
  {
    if |a| == 0 {
      assert a + b == b;
    } else {
      assert (a + b)[1..] == a[1..] + b;
      NovelsAppend(a[1..], b);
    }
  }

  /** A single book is kept, once, exactly when it is a novel; with
      `NovelsAppend` this fixes `Novels` on every list. */
  lemma NovelsSingle(b: Book)
    ensures Novels([b]) == if IsNovel(b) then [b] else []
  {
    assert [b][1..] == [];
  }

  /** The local "novel" filter, which falls back to the unfiltered list
      when no book has a novel subject. */
  function NovelFilter(bs: seq<Book>): (r: seq<Book>)
    ensures forall b :: b in r ==> b in bs
    ensures (exists b :: b in bs && IsNovel(b)) ==>
              (forall b :: b in r ==> IsNovel(b)) && (forall b :: b in bs && IsNovel(b) ==> b in r)
    ensures (forall b :: b in bs ==> !IsNovel(b)) ==> r == bs
    ensures Novels(bs) != [] ==> r == Novels(bs)
    ensures Novels(bs) == [] ==> r == bs
  {
    var novels := Novels(bs);
    if novels != [] then
      assert novels[0] in novels;
      novels
    else bs
  }

  /** `search_gutenberg` without shuffling: collect pages, optionally keep
      the novels, and cut at `limit`. */
  function Search(pages: seq<seq<Book>>, limit: int, requireNovel: bool): (r: seq<Book>)
    ensures |r| <= if limit > 0 then limit else 0
    ensures forall b :: b in r ==> exists k :: 0 <= k < |pages| && b in pages[k]
    ensures requireNovel && (exists b :: b in Collect(pages, limit, []) && IsNovel(b)) ==>
              forall b :: b in r ==> IsNovel(b)
    ensures var fetched := Collect(pages, limit, []);
            var kept := if requireNovel then NovelFilter(fetched) else fetched;
            && |r| <= |kept| && r == kept[..|r|]
            && (limit >= 0 ==> |r| == if limit <= |kept| then limit else |kept|)
  {
    var fetched := Collect(pages, limit, []);
    var kept := if requireNovel then NovelFilter(fetched) else fetched;
    var r := Prefix(kept, limit);
    assert forall b :: b in r ==> b in kept;
    r
  }

  // --- Download -----------------------------------------------------------------

  /** `f"{book_id}"` */
  function IdText(id: Option<nat>): string {
    match id
    case Some(n) => Decimal(n)
    case None => "None"
  }

  /** `b.get("title") or f"Gutenberg {book_id}"` */
  function TitleFor(b: Book): (r: string)
    ensures r != ""
    ensures Truthy(b.title) ==> r == b.title.value
    ensures !Truthy(b.title) ==> r == "Gutenberg " + IdText(b.id)
  {
    if Truthy(b.title) then b.title.value else "Gutenberg " + IdText(b.id)
  }

  /** `a.get("name", "")` */
  function NameOf(a: Author): string {
    a.name.GetOr("")
  }

  function JoinedNames(authors: seq<Author>): string {
    Join(", ", seq(|authors|, i requires 0 <= i < |authors| => NameOf(authors[i])))
  }

  /** `", ".join(...) or "Unknown"` */
  function AuthorNames(authors: seq<Author>): (r: string)
    ensures r != ""
  {
    var joined := JoinedNames(authors);
    if joined == "" then "Unknown" else joined
  }

  /** "Unknown" stands in only for no author or one nameless author; two
      nameless authors already give the non-empty ", ". */
  lemma AuthorNamesFallback(authors: seq<Author>)
    ensures JoinedNames(authors) == "" <==> |authors| == 0 || (|authors| == 1 && NameOf(authors[0]) == "")
    ensures JoinedNames(authors) != "" ==> AuthorNames(authors) == JoinedNames(authors)
    ensures |authors| == 0 || (|authors| == 1 && NameOf(authors[0]) == "") ==> AuthorNames(authors) == "Unknown"
    ensures |authors| == 1 && NameOf(authors[0]) != "" ==> AuthorNames(authors) == NameOf(authors[0])
    ensures |authors| == 2 ==> AuthorNames(authors) == NameOf(authors[0]) + ", " + NameOf(authors[1])
    ensures |authors| >= 2 ==> Contains(AuthorNames(authors), ", ")
  {
    var names := seq(|authors|, i requires 0 <= i < |authors| => NameOf(authors[i]));
    JoinEmptyIff(", ", names);
    if |authors| == 2 {
      assert names[1..] == [NameOf(authors[1])];
    }
    if |authors| >= 2 {
      var joined := Join(", ", names);
      assert joined == names[0] + ", " + Join(", ", names[1..]);
      assert joined[|names[0]|..|names[0]| + 2] == ", ";
      ContainsAt(joined, ", ", |names[0]|);
    }
  }

  /** Extension of the downloaded book file, from its MIME key. */
  function BookExtension(mime: string): (ext: string)
    ensures ext == ".epub" <==> Contains(mime, "epub")
    ensures ext == ".txt" <==> !Contains(mime, "epub") && Contains(mime, TextPlain)
    ensures ext == ".bin" <==> !Contains(mime, "epub") && !Contains(mime, TextPlain)
  {
    if Contains(mime, "epub") then ".epub"
    else if Contains(mime, TextPlain) then ".txt"
    else ".bin"
  }

  /** Extension of the downloaded cover, from its URL. */
  function CoverExtension(url: string): (ext: string)
    ensures ext == ".jpg" <==> IsSuffix(".jpg", url)
    ensures ext == ".jpg" || ext == ".png"
  {
    if IsSuffix(".jpg", url) then ".jpg" else ".png"
  }

  /** Neither plain-text key mentions "epub". */
  lemma TextKeysNotEpub(key: string)
    requires key == TextUtf8 || key == TextPlain
    ensures !Contains(key, "epub")
  {
    ContainsIff(key, "epub");
    if exists i :: OccursAt(key, "epub", i) {
      var i :| OccursAt(key, "epub", i);
      EpubAt(key, i);
      assert false;
    }
  }

  lemma EpubAt(s: string, i: int)
    requires OccursAt(s, "epub", i)
    ensures s[i] == 'e' && s[i + 1] == 'p'
  {
    var w := s[i..i + 4];
    assert s[i + 1] == w[1];
    assert s[i] == w[0];
  }

  /** Every format `_pick_best_download` can choose names an EPUB or a text
      MIME type, so the `.bin` extension is never used; EPUBs get `.epub`. */
  lemma ChosenFormatExtension(fs: FormatMap)
    requires PickBestDownload(fs).Some?
    ensures BookExtension(PickBestDownload(fs).value.0) != ".bin"
    ensures HasEpub(fs) ==> BookExtension(PickBestDownload(fs).value.0) == ".epub"
    ensures !HasEpub(fs) && (TextUrl(fs, TextUtf8) || TextUrl(fs, TextPlain)) ==> BookExtension(PickBestDownload(fs).value.0) == ".txt"
  {
    var mime := PickBestDownload(fs).value.0;
    if HasEpub(fs) {
      assert EpubMime[12..16] == "epub";
      ContainsAt(EpubMime, "epub", 12);
      ContainsViaPrefix(EpubMime, mime, "epub");
    } else if TextUrl(fs, TextUtf8) {
      assert TextUtf8[..|TextPlain|] == TextPlain;
      ContainsAt(TextUtf8, TextPlain, 0);
      TextKeysNotEpub(TextUtf8);
    } else if TextUrl(fs, TextPlain) {
      ContainsAt(TextPlain, TextPlain, 0);
      TextKeysNotEpub(TextPlain);
    }
  }

  /** What `download_books` settles for one book before any download:
      title, author line, directory name, and which URLs go to which file. */
  datatype Plan = Plan(
    title: string,
    authorNames: string,
    dir: string,
    book: Option<(string, string)>,
    cover: Option<(string, string)>)

  /** The book download, if any: the chosen URL and its local file name. */
  function BookFile(fs: FormatMap): (r: Option<(string, string)>)
    ensures r.Some? <==> PickBestDownload(fs).Some?
    ensures r.Some? ==> r.value.0 == PickBestDownload(fs).value.1
    ensures r.Some? ==> r.value.1 == "book.epub" || r.value.1 == "book.txt"
    ensures r.Some? ==> r.value.1 == "book" + BookExtension(PickBestDownload(fs).value.0)
    ensures HasEpub(fs) ==> r.Some? && r.value.1 == "book.epub"
    ensures !HasEpub(fs) && (TextUrl(fs, TextUtf8) || TextUrl(fs, TextPlain)) ==> r.Some? && r.value.1 == "book.txt"
  {
    match PickBestDownload(fs)
    case Some(chosen) =>
      ChosenFormatExtension(fs);
      var ext := BookExtension(chosen.0);
      BookName(ext);
      Some((chosen.1, "book" + ext))
    case None => None
  }

  lemma BookName(ext: string)
    ensures ext == ".epub" ==> "book" + ext == "book.epub"
    ensures ext == ".txt" ==> "book" + ext == "book.txt"
  {
  }

  /** The cover download, if any: the cover URL and its local file name. */
  function CoverFile(fs: FormatMap): (r: Option<(string, string)>)
    ensures r.Some? <==> PickCover(fs).Some?
    ensures r.Some? ==> r.value.0 == PickCover(fs).value
    ensures r.Some? ==> (r.value.1 == "cover.jpg" <==> IsSuffix(".jpg", r.value.0))
    ensures r.Some? ==> r.value.1 == "cover.jpg" || r.value.1 == "cover.png"
  {
    match PickCover(fs)
    case Some(url) =>
      assert "cover" + ".jpg" == "cover.jpg" && "cover" + ".png" == "cover.png";
      assert "cover.png"[6] != "cover.jpg"[6];
      Some((url, "cover" + CoverExtension(url)))
    case None => None
  }

  function PlanFor(b: Book): (p: Plan)
    ensures p.title != "" && p.authorNames != ""
    ensures p.title == TitleFor(b) && p.authorNames == AuthorNames(b.authors)
    ensures p.dir == SafeName(p.title + " - " + p.authorNames) && IsSafeName(p.dir)
    ensures p.book == BookFile(b.formats) && p.cover == CoverFile(b.formats)
  {
    var title := TitleFor(b);
    var names := AuthorNames(b.authors);
    Plan(title, names, SafeName(title + " - " + names), BookFile(b.formats), CoverFile(b.formats))
  }

  // --- Report ---------------------------------------------------------------------

  /** The `authors` field of a saved metadata record: a list whose items
      may be JSON null (an author without a name), or anything else,
      including a missing field. */
  datatype MetaAuthors = AuthorList(names: seq<Option<string>>) | NotAList

  /** A saved metadata record; `title` and `file` are `None` when the
      record lacks the field. */
  datatype Meta = Meta(title: Option<string>, authors: MetaAuthors, file: Option<string>)

  /** `", ".join` met an item that is not a string. */
  datatype ReportError = JoinTypeError

  const NoBooksMessage := "No books found in index.json. Please run the download script."
  const NoFilePlaceholder := "[Book file not found in metadata]\n\n"
  const RuleLine := "\n" + Repeat('=', 80) + "\n\n"

  /** The author line of a header: the list joined with ", ", or
      "Unknown Author" for a field that is not a list. */
  function AuthorsText(a: MetaAuthors): (r: Result<string, ReportError>)
    ensures r.Failure? <==> a.AuthorList? && exists i :: 0 <= i < |a.names| && a.names[i].None?
    ensures a.NotAList? ==> r == Success("Unknown Author")
    ensures a.AuthorList? && r.Success? ==> r.value == Join(", ", NameValues(a.names))
  {
    match a
    case NotAList => Success("Unknown Author")
    case AuthorList(names) =>
      if exists i :: 0 <= i < |names| && names[i].None? then Failure(JoinTypeError)
      else Success(Join(", ", NameValues(names)))
  }

  /** The names of a list in which every author has one. */
  function NameValues(names: seq<Option<string>>): (r: seq<string>)
    requires forall i :: 0 <= i < |names| ==> names[i].Some?
    ensures |r| == |names| && forall i :: 0 <= i < |names| ==> r[i] == names[i].value
  {
    seq(|names|, i requires 0 <= i < |names| => names[i].value)
  }

  /** The body of one book: its text as `read` (the book reader) returns
      it, or a placeholder when there is no file or no text. */
  function BookBody(m: Meta, read: string -> string): (r: string)
    ensures r != ""
    ensures Truthy(m.file) && read(m.file.value) != "" ==> r == read(m.file.value)
    ensures !Truthy(m.file) ==> r == NoFilePlaceholder
    ensures Truthy(m.file) && read(m.file.value) == "" ==> r == "[Could not read or parse book file: " + m.file.value + "]\n\n"
  {
    if !Truthy(m.file) then NoFilePlaceholder
    else
      var text := read(m.file.value);
      if text != "" then text
      else "[Could not read or parse book file: " + m.file.value + "]\n\n"
  }

  /** The header line of a section: the book number counted from 1, the
      title or "Unknown Title", and the author line. */
  function Header(index: nat, m: Meta, authors: string): (h: string)
    ensures var lead := "--- BOOK " + Decimal(index + 1) + ": ";
            var title := m.title.GetOr("Unknown Title");
            var n := |lead| + |title|;
            && |h| == n + 4 + |authors| + 6
            && h[..|lead|] == lead
            && h[|lead|..n] == title
            && h[n..n + 4] == " by "
            && h[n + 4..n + 4 + |authors|] == authors
            && h[n + 4 + |authors|..] == " ---\n\n"
  {
    var lead := "--- BOOK " + Decimal(index + 1) + ": ";
    var title := m.title.GetOr("Unknown Title");
    var front := lead + title + " by ";
    var h := front + authors + " ---\n\n";
    Parts3(lead, title, " by ");
    Parts3(front, authors, " ---\n\n");
    assert h[..|lead|] == front[..|lead|];
    assert h[|lead|..|lead| + |title|] == front[|lead|..|lead| + |title|];
    assert h[|lead| + |title|..|front|] == front[|lead| + |title|..];
    h
  }

  /** The report section for the book at position `index` (from 0). */
  function Section(index: nat, m: Meta, read: string -> string): (r: Result<string, ReportError>)
    ensures r.Failure? <==> AuthorsText(m.authors).Failure?
    ensures r.Success? ==> |r.value| > |RuleLine|
    ensures r.Success? ==>
              var h := Header(index, m, AuthorsText(m.authors).value);
              var body := BookBody(m, read);
              && |r.value| == |h| + |body| + |RuleLine|
              && r.value[..|h|] == h
              && r.value[|h|..|h| + |body|] == body
              && r.value[|h| + |body|..] == RuleLine
  {
    match AuthorsText(m.authors)
    case Failure(e) => Failure(e)
    case Success(authors) =>
      var h := Header(index, m, authors);
      Parts3(h, BookBody(m, read), RuleLine);
      Success(h + BookBody(m, read) + RuleLine)
  }

  /** Concatenation of two results; the first failure wins. */
  function AppendResult(a: Result<string, ReportError>, b: Result<string, ReportError>): Result<string, ReportError> {
    match a
    case Failure(e) => Failure(e)
    case Success(s) =>
      match b
      case Failure(e) => Failure(e)
      case Success(t) => Success(s + t)
  }

  /** The sections of `ms`, numbered from `start`. */
  function Sections(ms: seq<Meta>, start: nat, read: string -> string): Result<string, ReportError>
    decreases |ms|
  {
    if |ms| == 0 then Success("")
    else AppendResult(Sections(ms[..|ms| - 1], start, read), Section(start + |ms| - 1, ms[|ms| - 1], read))
  }

  /** `get_all_downloaded_books_text` once the index is loaded. */
  function Report(ms: seq<Meta>, read: string -> string): (r: Result<string, ReportError>)
    ensures ms == [] ==> r == Success(NoBooksMessage)
  {
    if ms == [] then Success(NoBooksMessage) else Sections(ms, 0, read)
  }
}

=== FILE: formats.dfy ===
/** Choosing what to download for one Gutenberg book from its format map
    (`_pick_best_download` and `_pick_cover` in offline_books.py).

    The map from MIME key to URL is a sequence of pairs in dict insertion
    order; the zip fallback walks it in that order. The map is a decoded
    JSON object turned into a `dict`, so each key occurs once
    (`DistinctKeys`); on such a map the lookup below finds the one value
    stored under a key (`GetDistinct`). */
module Formats {
  import opened Outcomes
  import opened Strings

  type FormatMap = seq<(string, string)>

  const EpubMime := "application/epub+zip"
  const TextUtf8 := "text/plain; charset=utf-8"
  const TextPlain := "text/plain"
  const Jpeg := "image/jpeg"
  const Png := "image/png"

  /** `formats.get(key)` */
  function Get(fs: FormatMap, key: string): (r: Option<string>)
    ensures r.None? <==> forall i :: 0 <= i < |fs| ==> fs[i].0 != key
    ensures r.Some? ==> (key, r.value) in fs
  {
    if |fs| == 0 then None
    else if fs[0].0 == key then Some(fs[0].1)
    else Get(fs[1..], key)
  }

  /** No key occurs twice, as in a Python `dict`. */
  predicate DistinctKeys(fs: FormatMap) {
    forall i, j :: 0 <= i < j < |fs| ==> fs[i].0 != fs[j].0
  }

  /** With distinct keys, the lookup is the value stored under the key. */
  lemma {:induction false} GetDistinct(fs: FormatMap, key: string, v: string)
    requires DistinctKeys(fs)
    ensures (key, v) in fs <==> Get(fs, key) == Some(v)
    decreases |fs|
  {
    if |fs| > 0 {
      var rest := fs[1..];
      assert DistinctKeys(rest) by {
        forall i, j | 0 <= i < j < |rest| ensures rest[i].0 != rest[j].0 {
          assert rest[i] == fs[i + 1] && rest[j] == fs[j + 1];
        }
      }
      GetDistinct(rest, key, v);
      if fs[0].0 == key {
        assert forall j :: 0 <= j < |rest| ==> rest[j] == fs[j + 1];
      }
      assert fs == [fs[0]] + rest;
    }
  }

  /** `formats.get(key)` is truthy: present and not the empty string. */
  predicate HasUrl(fs: FormatMap, key: string) {
    Get(fs, key).Some? && Get(fs, key).value != ""
  }

  /** 0 for keys mentioning `.noimages`, which the sort puts first. */
  function ImagesRank(key: string): nat {
    if Contains(key, ".noimages") then 0 else 1
  }

  /** The order of `sorted(..., key=lambda k: (".noimages" not in k, k))`. */
  predicate EpubBefore(a: string, b: string) {
    ImagesRank(a) < ImagesRank(b) || (ImagesRank(a) == ImagesRank(b) && StrLe(a, b))
  }

  lemma EpubBeforeTotal(a: string, b: string)
    ensures EpubBefore(a, b) || EpubBefore(b, a)
  {
    StrLeTotal(a, b);
  }

  lemma EpubBeforeTransitive(a: string, b: string, c: string)
    requires EpubBefore(a, b) && EpubBefore(b, c)
    ensures EpubBefore(a, c)
  {
    if ImagesRank(a) == ImagesRank(b) == ImagesRank(c) {
      StrLeTransitive(a, b, c);
    }
  }

  /** Two keys each before the other are the same key, so "the first
      candidate in this order" names one key whatever the insertion order. */
  lemma EpubBeforeAntisymmetric(a: string, b: string)
    requires EpubBefore(a, b) && EpubBefore(b, a)
    ensures a == b
  {
    StrLeAntisymmetric(a, b);
  }

  /** A key the EPUB tier may return: an EPUB MIME key with a usable URL. */
  predicate EpubCandidate(fs: FormatMap, key: string) {
    IsPrefix(EpubMime, key) && HasUrl(fs, key)
  }

  predicate HasEpub(fs: FormatMap) {
    exists i :: 0 <= i < |fs| && EpubCandidate(fs, fs[i].0)
  }

  /** The first EPUB candidate, in sort order, among the keys of `keys`. */
  function FirstEpub(fs: FormatMap, keys: FormatMap): (r: Option<string>)
    ensures r.Some? ==> EpubCandidate(fs, r.value)
    ensures r.Some? ==> exists i :: 0 <= i < |keys| && keys[i].0 == r.value
    ensures r.None? ==> forall i :: 0 <= i < |keys| ==> !EpubCandidate(fs, keys[i].0)
    ensures r.Some? ==> forall i :: 0 <= i < |keys| && EpubCandidate(fs, keys[i].0) ==> EpubBefore(r.value, keys[i].0)
    decreases |keys|
  {
    if |keys| == 0 then None
    else
      var k := keys[0].0;
      var rest := FirstEpub(fs, keys[1..]);
      assert forall i :: 1 <= i < |keys| ==> keys[i] == keys[1..][i - 1];
      if !EpubCandidate(fs, k) then rest
      else if rest.None? then
        StrLeTotal(k, k);
        Some(k)
      else
        EpubBeforeTotal(k, rest.value);
        if EpubBefore(k, rest.value) then
          assert forall i :: 1 <= i < |keys| && EpubCandidate(fs, keys[i].0) ==> EpubBefore(k, keys[i].0) by {
            forall i | 1 <= i < |keys| && EpubCandidate(fs, keys[i].0)
              ensures EpubBefore(k, keys[i].0)
            {
              EpubBeforeTransitive(k, rest.value, keys[i].0);
            }
          }
          StrLeTotal(k, k);
          Some(k)
        else rest
  }

  /** `url and url.endswith(".txt")` for the URL under `key`. */
  predicate TextUrl(fs: FormatMap, key: string) {
    HasUrl(fs, key) && IsSuffix(".txt", Get(fs, key).value)
  }

  /** An entry the zip fallback accepts. */
  predicate ZipEntry(e: (string, string)) {
    Contains(e.0, TextPlain) && IsSuffix(".zip", e.1)
  }

  /** The index of the first entry, from `from` on, that the zip fallback accepts. */
  function FirstZip(fs: FormatMap, from: nat): (r: Option<nat>)
    requires from <= |fs|
    ensures r.Some? ==> from <= r.value < |fs| && ZipEntry(fs[r.value])
    ensures r.Some? ==> forall j :: from <= j < r.value ==> !ZipEntry(fs[j])
    ensures r.None? ==> forall j :: from <= j < |fs| ==> !ZipEntry(fs[j])
    decreases |fs| - from
  {
    if from == |fs| then None
    else if ZipEntry(fs[from]) then Some(from)
    else FirstZip(fs, from + 1)
  }

  /** `_pick_best_download`: an EPUB (`.noimages` keys first, then by key),
      else UTF-8 plain text, else plain text, each only with a `.txt` URL,
      else the first text entry in insertion order whose URL is a `.zip`. */
  function PickBestDownload(fs: FormatMap): (r: Option<(string, string)>)
    ensures r.Some? ==> r.value in fs && r.value.1 != ""
    ensures HasEpub(fs) ==> r.Some? && EpubCandidate(fs, r.value.0)
    ensures HasEpub(fs) ==> forall i :: 0 <= i < |fs| && EpubCandidate(fs, fs[i].0) ==> EpubBefore(r.value.0, fs[i].0)
    ensures !HasEpub(fs) && TextUrl(fs, TextUtf8) ==> r == Some((TextUtf8, Get(fs, TextUtf8).value))
    ensures !HasEpub(fs) && !TextUrl(fs, TextUtf8) && TextUrl(fs, TextPlain) ==> r == Some((TextPlain, Get(fs, TextPlain).value))
    ensures !HasEpub(fs) && !TextUrl(fs, TextUtf8) && !TextUrl(fs, TextPlain) ==>
              (r.None? <==> forall j :: 0 <= j < |fs| ==> !ZipEntry(fs[j]))
    ensures !HasEpub(fs) && !TextUrl(fs, TextUtf8) && !TextUrl(fs, TextPlain) && r.Some? ==>
              exists i :: 0 <= i < |fs| && fs[i] == r.value && ZipEntry(fs[i]) && forall j :: 0 <= j < i ==> !ZipEntry(fs[j])
  {
    match FirstEpub(fs, fs)
    case Some(k) => Some((k, Get(fs, k).value))
    case None =>
      if TextUrl(fs, TextUtf8) then Some((TextUtf8, Get(fs, TextUtf8).value))
      else if TextUrl(fs, TextPlain) then Some((TextPlain, Get(fs, TextPlain).value))
      else
        match FirstZip(fs, 0)
        case Some(i) => Some(fs[i])
        case None => None
  }

  /** `k in formats and formats[k].lower().startswith("http")` */
  predicate UsableCover(fs: FormatMap, key: string) {
    Get(fs, key).Some? && IsPrefix("http", Lower(Get(fs, key).value))
  }

  /** `_pick_cover`: a usable JPEG cover URL, else a usable PNG one. */
  function PickCover(fs: FormatMap): (r: Option<string>)
    ensures r.Some? ==> IsPrefix("http", Lower(r.value))
    ensures r.Some? ==> (Jpeg, r.value) in fs || (Png, r.value) in fs
    ensures r.None? <==> !UsableCover(fs, Jpeg) && !UsableCover(fs, Png)
    ensures UsableCover(fs, Jpeg) ==> r == Get(fs, Jpeg)
  {
    if UsableCover(fs, Jpeg) then Get(fs, Jpeg)
    else if UsableCover(fs, Png) then Get(fs, Png)
    else None
  }
}

=== FILE: outcomes.dfy ===
/** Optional values and results with an error, the two shapes the scripts
    use for "maybe nothing" (`None`) and "raised an exception". */
module Outcomes {

  datatype Option<+T> = None | Some(value: T) {

    /** The value, or `default` when there is none. */
    function GetOr(default: T): T {
      match this
      case Some(v) => v
      case None => default
    }
  }

  datatype Result<+R, +E> = Success(value: R) | Failure(error: E) {

    predicate IsFailure() {
      Failure?
    }

    function PropagateFailure<U>(): Result<U, E>
      requires Failure?
    {
      Failure(error)
    }

    function Extract(): R
      requires Success?
    {
      value
    }
  }
}

=== FILE: playback.dfy ===
/** Properties of a run of the playback engine: what `n` timer ticks ask
    of the players and how far they move them. */
module Playback {
  import opened Outcomes
  import opened Player
  import opened Strings

  /** Frames asked of the audio player in a trace. */
  function AudioAsked(t: seq<Event>): nat
    decreases |t|
  {
    if |t| == 0 then 0
    else AudioAsked(t[..|t| - 1]) + (if t[|t| - 1].AudioRequest? then t[|t| - 1].n else 0)
  }

  /** Frames asked of the video player in a trace. */
  function VideoPulls(t: seq<Event>): nat
    decreases |t|
  {
    if |t| == 0 then 0
    else VideoPulls(t[..|t| - 1]) + (if t[|t| - 1].VideoRequest? then 1 else 0)
  }

  lemma {:induction false} CountsAppend(a: seq<Event>, b: seq<Event>)
    ensures AudioAsked(a + b) == AudioAsked(a) + AudioAsked(b)
    ensures VideoPulls(a + b) == VideoPulls(a) + VideoPulls(b)
    decreases |b|
  {
    if |b| == 0 {
      assert a + b == a;
    } else {
      assert (a + b)[..|a + b| - 1] == a + b[..|b| - 1];
      CountsAppend(a, b[..|b| - 1]);
    }
  }

  /** One tick's requests: `ratio` audio frames and one video frame while
      playing, none while paused. */
  lemma TickCounts(e: Engine)
    ensures AudioAsked(Tick(e).trace) == AudioAsked(e.trace) + (if e.playing then e.ratio else 0)
    ensures VideoPulls(Tick(e).trace) == VideoPulls(e.trace) + (if e.playing then 1 else 0)
  {
    var t := TickEvents(e);
    TickEventsShape(e);
    CountsAppend(e.trace, t);
    if e.playing {
      var head := [AudioRequest(e.ratio), VideoRequest];
      var tail := t[2..];
      assert t == head + tail;
      NoRequests(tail);
      CountsAppend(head, tail);
      assert head[..1] == [AudioRequest(e.ratio)] && head[..1][..0] == [];
    } else {
      assert t[..0] == [];
    }
  }

  lemma {:induction false} NoRequests(t: seq<Event>)
    requires forall i :: 0 <= i < |t| ==> !t[i].AudioRequest? && !t[i].VideoRequest?
    ensures AudioAsked(t) == 0 && VideoPulls(t) == 0
    decreases |t|
  {
    if |t| > 0 {
      NoRequests(t[..|t| - 1]);
    }
  }

  /** After `n` playing ticks the audio has been asked for `n * ratio`
      frames and the video for `n`; after `n` paused ticks, for nothing. */
  lemma {:induction false} RunCounts(e: Engine, n: nat)
    ensures Run(e, n).playing == e.playing && Run(e, n).ratio == e.ratio
    ensures AudioAsked(Run(e, n).trace) == AudioAsked(e.trace) + (if e.playing then n * e.ratio else 0)
    ensures VideoPulls(Run(e, n).trace) == VideoPulls(e.trace) + (if e.playing then n else 0)
    decreases n
  {
    if n > 0 {
      var t := Tick(e);
      RunStep(e, n);
      TickCounts(e);
      RunCounts(t, n - 1);
      StepProduct(n, e.ratio);
    }
  }

  lemma StepProduct(n: nat, ratio: nat)
    requires n > 0
    ensures (n - 1) * ratio + ratio == n * ratio
  {
  }

  /** Paused ticks leave both players where they were. */
  lemma {:induction false} PausedRun(e: Engine, n: nat)
    requires !e.playing
    ensures Run(e, n).audio == e.audio && Run(e, n).video == e.video
    decreases n
  {
    if n > 0 {
      RunStep(e, n);
      PausedRun(Tick(e), n - 1);
    }
  }

  lemma DropDrop<T>(s: seq<T>, a: nat, b: nat)
    requires a <= |s| && b <= |s| - a
    ensures s[a..][b..] == s[a + b..]
  {
  }

  /** `n` ticks are one tick followed by `n - 1` more. */
  lemma RunStep(e: Engine, n: nat)
    requires n > 0
    ensures Run(e, n) == Run(Tick(e), n - 1)
  {
  }

  /** `n` calls of `play_frames(ratio)` on their own. */
  function Plays(a: AudioPlayer, ratio: nat, n: nat): AudioPlayer
    decreases n
  {
    if n == 0 then a else Plays(PlayFrames(a, ratio), ratio, n - 1)
  }

  /** `n` calls of `next_frame` on their own. */
  function Pulls(v: VideoPlayer, n: nat): VideoPlayer
    decreases n
  {
    if n == 0 then v else Pulls(NextFrame(v).player, n - 1)
  }

  /** While playing, the audio player of a run is that of `n` reads,
      whatever the trace records. */
  lemma {:induction false} PlayingRunPlays(e: Engine, n: nat)
    requires e.playing
    ensures Run(e, n).audio == Plays(e.audio, e.ratio, n)
    decreases n
  {
    if n > 0 {
      var e' := Tick(e);
      assert e'.playing && e'.ratio == e.ratio && e'.audio == PlayFrames(e.audio, e.ratio);
      assert Plays(e.audio, e.ratio, n) == Plays(e'.audio, e.ratio, n - 1);
      RunStep(e, n);
      PlayingRunPlays(e', n - 1);
    }
  }

  /** While playing, the video player of a run is that of `n` pulls. */
  lemma {:induction false} PlayingRunPulls(e: Engine, n: nat)
    requires e.playing
    ensures Run(e, n).video == Pulls(e.video, n)
    decreases n
  {
    if n > 0 {
      var e' := Tick(e);
      assert e'.playing && e'.video == NextFrame(e.video).player;
      assert Pulls(e.video, n) == Pulls(e'.video, n - 1);
      RunStep(e, n);
      PlayingRunPulls(e', n - 1);
    }
  }

  /** Taking `ratio` of `len` items, then `(n - 1) * ratio` of the rest,
      takes `min(n * ratio, len)` in all. */
  lemma MinSteps(ratio: nat, n: nat, len: nat)
    requires n > 0
    ensures Min(ratio, len) + Min((n - 1) * ratio, len - Min(ratio, len)) == Min(n * ratio, len)
  {
    assert (n - 1) * ratio + ratio == n * ratio;
  }

  /** Frames taken by `n` reads of `ratio` frames from `len` available. */
  function Consumed(ratio: nat, n: nat, len: nat): (c: nat)
    ensures c <= len
    decreases n
  {
    if n == 0 then 0 else Min(ratio, len) + Consumed(ratio, n - 1, len - Min(ratio, len))
  }

  /** The reads take `min(n * ratio, len)` frames in all. */
  lemma {:induction false} ConsumedIsMin(ratio: nat, n: nat, len: nat)
    ensures Consumed(ratio, n, len) == Min(n * ratio, len)
    decreases n
  {
    if n > 0 {
      ConsumedIsMin(ratio, n - 1, len - Min(ratio, len));
      MinSteps(ratio, n, len);
    }
  }

  /** `n` reads of `ratio` frames move the cursor past the frames they take. */
  lemma {:induction false} PlaysRest(a: AudioPlayer, ratio: nat, n: nat)
    ensures Plays(a, ratio, n).rest == a.rest[Consumed(ratio, n, |a.rest|)..]
    decreases n
  {
    if n > 0 {
      var c := Min(ratio, |a.rest|);
      PlaysRest(PlayFrames(a, ratio), ratio, n - 1);
      DropDrop(a.rest, c, Consumed(ratio, n - 1, |a.rest| - c));
    } else {
      assert a.rest[0..] == a.rest;
    }
  }

  /** `n` pulls move the cursor by `min(n, available)`. */
  lemma {:induction false} PullsRest(v: VideoPlayer, n: nat)
    ensures Pulls(v, n).rest == v.rest[Min(n, |v.rest|)..]
    decreases n
  {
    if n > 0 {
      var c := Min(1, |v.rest|);
      PullsRest(NextFrame(v).player, n - 1);
      DropDrop(v.rest, c, Min(n - 1, |v.rest| - c));
    }
  }

  /** Lock-step, audio side: after `n` playing ticks the audio cursor has
      moved past `min(n * ratio, available)` frames. */
  lemma PlayingRunAudio(e: Engine, n: nat)
    requires e.playing
    ensures Run(e, n).audio.rest == e.audio.rest[Min(n * e.ratio, |e.audio.rest|)..]
  {
    PlayingRunPlays(e, n);
    PlaysRest(e.audio, e.ratio, n);
    ConsumedIsMin(e.ratio, n, |e.audio.rest|);
  }

  /** Lock-step, video side: after `n` playing ticks the video cursor has
      moved past `min(n, available)` frames. */
  lemma PlayingRunVideo(e: Engine, n: nat)
    requires e.playing
    ensures Run(e, n).video.rest == e.video.rest[Min(n, |e.video.rest|)..]
  {
    PlayingRunPulls(e, n);
    PullsRest(e.video, n);
  }

  /** Every audio frame the ticks consumed went to the output stream, once
      and in order. */
  lemma {:induction false} RunConservesAudio(e: Engine, n: nat)
    ensures Concat(Run(e, n).audio.written) + Run(e, n).audio.rest == Concat(e.audio.written) + e.audio.rest
    decreases n
  {
    if n > 0 {
      var t := Tick(e);
      RunStep(e, n);
      RunConservesAudio(t, n - 1);
      if e.playing {
        assert t.audio == PlayFrames(e.audio, e.ratio);
        PlayFramesConserves(e.audio, e.ratio);
      }
    }
  }

  /** The ratio is never checked to be at least 1: with audio slower than
      video it is 0, and playing ticks then never consume audio at all. */
  lemma ZeroRatioStallsAudio(e: Engine, n: nat)
    requires e.playing && e.ratio == 0
    ensures Run(e, n).audio.rest == e.audio.rest
  {
    PlayingRunAudio(e, n);
  }

  /** A rate pair that gives the zero ratio: 24 audio frames per second
      against 25 video frames per second. */
  lemma SlowAudioGivesZeroRatio()
    ensures Ratio(24, 25) == Success(0)
  {
  }
}

=== FILE: player.dfy ===
/** The playback engine of video.py, duplicated in tktest.py: an audio
    player and a video player seen as cursors over decoded media, a fixed
    number of audio frames per video frame, a play flag, and a tick the Tk
    timer calls again and again. Decoding, the sound device and the canvas
    are outside; what they receive is recorded instead. */
module Player {
  import opened Outcomes
  import opened Strings

  /** One pixel: three channel values in the order the decoder gives them. */
  datatype Pixel = Pixel(c0: int, c1: int, c2: int)

  type Frame = seq<Pixel>

  /** One decoded audio sample frame (all channels of one instant). */
  type AudioFrame = int

  /** The exceptions the constructors and callbacks can raise. */
  datatype Error =
    | VideoOpenError     // `ValueError("Unable to open video source", path)`
    | AudioOpenError     // `wave.open` fails on the cached audio file
    | ExtractError       // `extract_audio` fails
    | ZeroDivisionError  // the video reports 0 frames per second
    | IndexError         // a playlist index past the end

  /** `cv2.cvtColor(frame, cv2.COLOR_BGR2RGB)`: first and third channel swap. */
  function ToRgb(f: Frame): (g: Frame)
    ensures |g| == |f|
    ensures forall i :: 0 <= i < |f| ==> g[i].c0 == f[i].c2 && g[i].c1 == f[i].c1 && g[i].c2 == f[i].c0
  {
    seq(|f|, i requires 0 <= i < |f| => Pixel(f[i].c2, f[i].c1, f[i].c0))
  }

  /** Converting twice restores the decoder's frame. */
  lemma ToRgbInvolution(f: Frame)
    ensures ToRgb(ToRgb(f)) == f
  {
  }

  function Min(a: nat, b: nat): (m: nat)
    ensures m <= a && m <= b
  {
    if a <= b then a else b
  }

  // --- Media sources and players ---------------------------------------------------

  /** What `cv2.VideoCapture(path)` finds: nothing it can open, or a stream. */
  datatype VideoSource = Unopenable | VideoStream(frames: seq<Frame>, width: nat, height: nat, fps: nat)

  /** What `wave.open(path, "rb")` finds: nothing readable, or a WAV file. */
  datatype AudioSource = Unreadable | WavFile(frames: seq<AudioFrame>, sampleWidth: nat, channels: nat, fps: nat)

  /** `VideoPlayer`: the frames not yet read, and the stream's properties. */
  datatype VideoPlayer = VideoPlayer(rest: seq<Frame>, width: nat, height: nat, fps: nat)

  /** `AudioPlayer`: the frames not yet read, the rate, and every chunk
      written to the output stream so far. */
  datatype AudioPlayer = AudioPlayer(rest: seq<AudioFrame>, fps: nat, written: seq<seq<AudioFrame>>)

  /** `VideoPlayer(path)`: raises when the source cannot be opened. */
  function OpenVideo(src: VideoSource): (r: Result<VideoPlayer, Error>)
    ensures r.Failure? <==> src.Unopenable?
    ensures r.Failure? ==> r.error == VideoOpenError
    ensures r.Success? ==> r.value.rest == src.frames && r.value.fps == src.fps
  {
    match src
    case Unopenable => Failure(VideoOpenError)
    case VideoStream(frames, w, h, fps) => Success(VideoPlayer(frames, w, h, fps))
  }

  /** `AudioPlayer(path)`: nothing written yet. */
  function OpenAudio(src: AudioSource): (r: Result<AudioPlayer, Error>)
    ensures r.Failure? <==> src.Unreadable?
    ensures r.Failure? ==> r.error == AudioOpenError
    ensures r.Success? ==> r.value.rest == src.frames && r.value.fps == src.fps && r.value.written == []
  {
    match src
    case Unreadable => Failure(AudioOpenError)
    case WavFile(frames, _, _, fps) => Success(AudioPlayer(frames, fps, []))
  }

  /** `play_frames(n)`: read up to `n` frames and write them to the output
      stream when the read returned anything. */
  function PlayFrames(a: AudioPlayer, n: nat): (a': AudioPlayer)
    ensures a'.rest == a.rest[Min(n, |a.rest|)..]
    ensures a'.fps == a.fps
  {
    var k := Min(n, |a.rest|);
    var data := a.rest[..k];
    if data != [] then a.(rest := a.rest[k..], written := a.written + [data])
    else a
  }

  /** A read adds one chunk, the frames it took, exactly when it took any,
      and leaves the earlier chunks alone. */
  lemma PlayFramesWrites(a: AudioPlayer, n: nat)
    ensures |PlayFrames(a, n).written| == if n > 0 && a.rest != [] then |a.written| + 1 else |a.written|
    ensures PlayFrames(a, n).written[..|a.written|] == a.written
    ensures n > 0 && a.rest != [] ==> PlayFrames(a, n).written[|a.written|] == a.rest[..Min(n, |a.rest|)]
  {
    var data := a.rest[..Min(n, |a.rest|)];
    if data != [] {
      assert (a.written + [data])[..|a.written|] == a.written;
    }
  }

  /** Reading moves frames from the file to the output stream: none is
      lost or duplicated, and their order is kept. */
  lemma PlayFramesConserves(a: AudioPlayer, n: nat)
    ensures Concat(PlayFrames(a, n).written) + PlayFrames(a, n).rest == Concat(a.written) + a.rest
  {
    var k := Min(n, |a.rest|);
    var data := a.rest[..k];
    if data != [] {
      ConcatAppend(a.written, [data]);
      assert Concat([data]) == data + Concat([data][1..]);
      assert a.rest == data + a.rest[k..];
    }
  }

  /** What `next_frame` returns: the success flag, the converted frame on
      success, and the player afterwards. */
  datatype Pull = Pull(ok: bool, frame: Option<Frame>, player: VideoPlayer)

  /** `next_frame`: the next frame, converted, while frames remain;
      `(False, None)` once the stream is exhausted. */
  function NextFrame(v: VideoPlayer): (p: Pull)
    ensures p.ok <==> v.rest != []
    ensures p.ok <==> p.frame.Some?
    ensures p.ok ==> p.player.rest == v.rest[1..] && p.frame.value == ToRgb(v.rest[0])
    ensures !p.ok ==> p.player == v
    ensures p.player.fps == v.fps
  {
    if v.rest != [] then Pull(true, Some(ToRgb(v.rest[0])), v.(rest := v.rest[1..]))
    else Pull(false, None, v)
  }

  // --- The engine -------------------------------------------------------------------

  /** What the engine asks of its collaborators, in order. */
  datatype Event =
    | AudioRequest(n: nat)    // `self.audio.play_frames(n)`
    | VideoRequest            // `self.video.next_frame()`
    | Draw(frame: Frame)      // the frame handed to the canvas
    | Reschedule(delay: nat)  // `self.root.after(delay, self.update)`

  /** `self.delay`: milliseconds between ticks. */
  const Delay := 1

  /** The player state of `App` (video.py) and `StartPage` (tktest.py). */
  datatype Engine = Engine(video: VideoPlayer, audio: AudioPlayer, ratio: nat, playing: bool, trace: seq<Event>)

  /** `int(self.audio.fps / self.video.fps)`: the truncated quotient, or
      `ZeroDivisionError` when the video reports no frame rate. */
  function Ratio(audioFps: nat, videoFps: nat): (r: Result<nat, Error>)
    ensures r.Failure? <==> videoFps == 0
    ensures r.Failure? ==> r.error == ZeroDivisionError
    ensures r.Success? ==> r.value * videoFps <= audioFps < (r.value + 1) * videoFps
  {
    if videoFps == 0 then Failure(ZeroDivisionError) else Success(audioFps / videoFps)
  }

  /** `toggle_play_pause` */
  function Toggle(e: Engine): (e': Engine)
    ensures e'.playing != e.playing
    ensures e'.(playing := e.playing) == e
  {
    e.(playing := !e.playing)
  }

  lemma ToggleTwice(e: Engine)
    ensures Toggle(Toggle(e)) == e
  {
  }

  /** The requests one `update` call makes, in order: while playing,
      `ratio` audio frames, one video frame, a draw if a frame came back;
      in every case the next tick is scheduled. */
  function TickEvents(e: Engine): (t: seq<Event>)
    ensures |t| >= 1 && t[|t| - 1] == Reschedule(Delay)
    ensures !e.playing ==> t == [Reschedule(Delay)]
  {
    if e.playing then
      var pull := NextFrame(e.video);
      [AudioRequest(e.ratio), VideoRequest] + (if pull.ok then [Draw(pull.frame.value)] else []) + [Reschedule(Delay)]
    else
      [Reschedule(Delay)]
  }

  /** While playing, a tick asks for `ratio` audio frames, then one video
      frame, then draws the frame when one came back; nothing after the
      first two entries is a request. */
  lemma TickEventsShape(e: Engine)
    ensures e.playing ==> |TickEvents(e)| >= 3 && TickEvents(e)[0] == AudioRequest(e.ratio) && TickEvents(e)[1] == VideoRequest
    ensures e.playing ==> (|TickEvents(e)| == 4 <==> e.video.rest != [])
    ensures e.playing && e.video.rest != [] ==> TickEvents(e)[2] == Draw(ToRgb(e.video.rest[0]))
    ensures forall i :: 2 <= i < |TickEvents(e)| ==> !TickEvents(e)[i].AudioRequest? && !TickEvents(e)[i].VideoRequest?
  {
  }

  /** `update`: record the requests and move the players they touch. */
  function Tick(e: Engine): (e': Engine)
    ensures e'.trace == e.trace + TickEvents(e)
    ensures e'.ratio == e.ratio && e'.playing == e.playing
    ensures !e.playing ==> e'.audio == e.audio && e'.video == e.video
    ensures e.playing ==> e'.audio == PlayFrames(e.audio, e.ratio) && e'.video == NextFrame(e.video).player
  {
    if e.playing then
      e.(audio := PlayFrames(e.audio, e.ratio), video := NextFrame(e.video).player,
         trace := e.trace + TickEvents(e))
    else
      e.(trace := e.trace + TickEvents(e))
  }

  /** `n` timer ticks: the play state and ratio stay, and the trace only
      grows, by at least one entry per tick. */
  function Run(e: Engine, n: nat): (e': Engine)
    ensures e'.playing == e.playing && e'.ratio == e.ratio
    ensures |e'.trace| >= |e.trace| + n && e'.trace[..|e.trace|] == e.trace
    decreases n
  {
    if n == 0 then e
    else
      var t := Tick(e);
      var r := Run(t, n - 1);
      assert r.trace[..|e.trace|] == r.trace[..|t.trace|][..|e.trace|];
      r
  }
}

=== FILE: report_laws.dfy ===
/** Laws of the book report of offline_books.py: how sections compose,
    when the report fails, and how it opens and closes. */
module ReportLaws {
  import opened Outcomes
  import opened Strings
  import opened Books

  /** A section opens with its book number, counted from 1, which reads
      back as `index + 1`, and closes with the rule line. */
  lemma SectionShape(index: nat, m: Meta, read: string -> string)
    requires Section(index, m, read).Success?
    ensures IsPrefix("--- BOOK " + Decimal(index + 1) + ": ", Section(index, m, read).value)
    ensures IsSuffix(RuleLine, Section(index, m, read).value)
    ensures var s, d := Section(index, m, read).value, Decimal(index + 1);
            && 9 + |d| <= |s|
            && s[9..9 + |d|] == d
            && DecimalValue(s[9..9 + |d|]) == index + 1
  {
    var p := "--- BOOK " + Decimal(index + 1) + ": ";
    var s := Section(index, m, read).value;
    var h := Header(index, m, AuthorsText(m.authors).value);
    assert s[..|p|] == h[..|p|] == p;
    NumberField("--- BOOK ", index + 1, ": ", s);
  }

  /** Adding a book adds its section, numbered by its position, after the
      sections of the books before it. */
  lemma SectionsAppend(ms: seq<Meta>, m: Meta, start: nat, read: string -> string)
    ensures Sections(ms + [m], start, read) == AppendResult(Sections(ms, start, read), Section(start + |ms|, m, read))
  {
    assert (ms + [m])[..|ms|] == ms;
  }

  /** The report of a longer index is the report of the shorter one
      followed by the new book's section, numbered by its position. */
  lemma ReportAppend(ms: seq<Meta>, m: Meta, read: string -> string)
    requires ms != []
    ensures Report(ms + [m], read) == AppendResult(Report(ms, read), Section(|ms|, m, read))
  {
    SectionsAppend(ms, m, 0, read);
  }

  /** The sections fail exactly when some record's author list holds a null. */
  lemma {:induction false} SectionsFailure(ms: seq<Meta>, start: nat, read: string -> string)
    ensures Sections(ms, start, read).Failure? <==> exists i :: 0 <= i < |ms| && AuthorsText(ms[i].authors).Failure?
    decreases |ms|
  {
    if |ms| > 0 {
      var init, last := ms[..|ms| - 1], ms[|ms| - 1];
      SectionsFailure(init, start, read);
      AppendFailure(Sections(init, start, read), Section(start + |ms| - 1, last, read));
      SplitLast(ms, init);
    }
  }

  lemma AppendFailure(a: Result<string, ReportError>, b: Result<string, ReportError>)
    ensures AppendResult(a, b).Failure? <==> a.Failure? || b.Failure?
  {
  }

  /** Some record of `ms` has a null author exactly when one of all but the
      last has, or the last has. */
  lemma SplitLast(ms: seq<Meta>, init: seq<Meta>)
    requires ms != [] && init == ms[..|ms| - 1]
    ensures (exists i :: 0 <= i < |ms| && AuthorsText(ms[i].authors).Failure?) <==>
            (exists i :: 0 <= i < |init| && AuthorsText(init[i].authors).Failure?)
            || AuthorsText(ms[|ms| - 1].authors).Failure?
  {
    if exists i :: 0 <= i < |ms| && AuthorsText(ms[i].authors).Failure? {
      var i :| 0 <= i < |ms| && AuthorsText(ms[i].authors).Failure?;
      if i < |init| {
        assert init[i] == ms[i];
      }
    }
    if exists i :: 0 <= i < |init| && AuthorsText(init[i].authors).Failure? {
      var i :| 0 <= i < |init| && AuthorsText(init[i].authors).Failure?;
      assert ms[i] == init[i];
    }
  }

  /** A successful non-empty run of sections opens with the first book's
      header and ends with a rule line. */
  lemma {:induction false} SectionsShape(ms: seq<Meta>, start: nat, read: string -> string)
    requires ms != [] && Sections(ms, start, read).Success?
    ensures IsPrefix("--- BOOK " + Decimal(start + 1) + ": ", Sections(ms, start, read).value)
    ensures IsSuffix(RuleLine, Sections(ms, start, read).value)
    decreases |ms|
  {
    var init := ms[..|ms| - 1];
    var before := Sections(init, start, read);
    var last := Section(start + |ms| - 1, ms[|ms| - 1], read);
    assert before.Success? && last.Success?;
    assert Sections(ms, start, read).value == before.value + last.value;
    SectionShape(start + |ms| - 1, ms[|ms| - 1], read);
    SuffixOfConcat(RuleLine, before.value, last.value);
    if |ms| == 1 {
      assert before.value + last.value == last.value;
    } else {
      assert init[0] == ms[0];
      SectionsShape(init, start, read);
      PrefixOfConcat("--- BOOK " + Decimal(start + 1) + ": ", before.value, last.value);
    }
  }

  /** The label of the first section, counted from 1. */
  lemma FirstLabel(start: nat, v: string)
    requires start == 0 && IsPrefix("--- BOOK " + Decimal(start + 1) + ": ", v)
    ensures IsPrefix("--- BOOK 1: ", v)
  {
    assert Decimal(1) == "1";
  }

  /** A non-empty index fails exactly when some record's author list
      holds a null. */
  lemma ReportFailure(ms: seq<Meta>, read: string -> string)
    requires ms != []
    ensures Report(ms, read).Failure? <==> exists i :: 0 <= i < |ms| && AuthorsText(ms[i].authors).Failure?
  {
    assert Report(ms, read) == Sections(ms, 0, read);
    SectionsFailure(ms, 0, read);
  }

  /** A successful non-empty report starts with book 1's header and ends
      with a rule line. */
  lemma ReportShape(ms: seq<Meta>, read: string -> string)
    requires ms != [] && Report(ms, read).Success?
    ensures IsPrefix("--- BOOK 1: ", Report(ms, read).value)
    ensures IsSuffix(RuleLine, Report(ms, read).value)
  {
    ReportIsSections(ms, read);
    SectionsFromOne(ms, read);
  }

  /** The sections of a whole index open with book 1. */
  lemma SectionsFromOne(ms: seq<Meta>, read: string -> string)
    requires ms != [] && Sections(ms, 0, read).Success?
    ensures IsPrefix("--- BOOK 1: ", Sections(ms, 0, read).value)
    ensures IsSuffix(RuleLine, Sections(ms, 0, read).value)
  {
    SectionsShape(ms, 0, read);
    FirstLabel(0, Sections(ms, 0, read).value);
  }

  lemma ReportIsSections(ms: seq<Meta>, read: string -> string)
    requires ms != []
    ensures Report(ms, read) == Sections(ms, 0, read)
  {
  }
}

=== FILE: safe_names.dfy ===
/** `_safe_name` (offline_books.py): turning "<title> - <authors>" into a
    directory name. */
module SafeNames {
  import opened Strings

  const MaxNameLength := 120
  const DefaultName := "book"

  /** Characters the first filter keeps: alphanumerics, space, `_`, `-`, `.`. */
  predicate KeptChar(c: char) {
    IsAlnum(c) || c == ' ' || c == '_' || c == '-' || c == '.'
  }

  /** Characters a finished name may hold. */
  predicate SafeChar(c: char) {
    IsAlnum(c) || c == '_' || c == '-' || c == '.'
  }

  /** A string `_safe_name` could have produced. */
  predicate IsSafeName(s: string) {
    1 <= |s| <= MaxNameLength && forall i :: 0 <= i < |s| ==> SafeChar(s[i])
  }

  /** `"".join(c for c in s if c.isalnum() or c in (" ", "_", "-", "."))` */
  function KeepChars(s: string): (r: string)
    ensures forall c :: c in r ==> KeptChar(c) && c in s
    ensures (forall i :: 0 <= i < |s| ==> KeptChar(s[i])) ==> r == s
    decreases |s|
  {
    if |s| == 0 then ""
    else if KeptChar(s[0]) then [s[0]] + KeepChars(s[1..])
    else KeepChars(s[1..])
  }

  /** Filtering distributes over concatenation: characters are kept or
      dropped one by one, in order. */
  lemma {:induction false} KeepCharsAppend(a: string, b: string)
    ensures KeepChars(a + b) == KeepChars(a) + KeepChars(b)
    decreases |a|
  {
    if |a| == 0 {
      assert a + b == b;
    } else {
      assert (a + b)[0] == a[0] && (a + b)[1..] == a[1..] + b;
      KeepCharsAppend(a[1..], b);
    }
  }

  /** A single character is kept exactly when it is allowed. */
  lemma KeepCharsSingle(c: char)
    ensures KeepChars([c]) == if KeptChar(c) then [c] else []
  {
    assert [c][1..] == [];
  }

  /** The longest prefix of `s` without whitespace. */
  function Word(s: string): (w: string)
    ensures |w| <= |s| && w == s[..|w|]
    ensures forall c :: c in w ==> !IsSpace(c)
    ensures |w| < |s| ==> IsSpace(s[|w|])
    decreases |s|
  {
    if |s| == 0 || IsSpace(s[0]) then ""
    else [s[0]] + Word(s[1..])
  }

  /** `s.split()`: the maximal runs of non-whitespace, in order. */
  function Words(s: string): seq<string>
    decreases |s|
  {
    if |s| == 0 then []
    else if IsSpace(s[0]) then Words(s[1..])
    else
      var w := Word(s);
      [w] + Words(s[|w|..])
  }

  /** The words are non-empty, hold no whitespace, and are made of
      characters of the string. */
  lemma {:induction false} WordsChars(s: string)
    ensures forall k :: 0 <= k < |Words(s)| ==> Words(s)[k] != ""
    ensures forall k, c :: 0 <= k < |Words(s)| && c in Words(s)[k] ==> !IsSpace(c) && c in s
    decreases |s|
  {
    if |s| == 0 {
    } else if IsSpace(s[0]) {
      WordsChars(s[1..]);
      assert forall c :: c in s[1..] ==> c in s;
    } else {
      var w := Word(s);
      assert w[0] == s[0];
      WordsChars(s[|w|..]);
      assert forall c :: c in s[|w|..] ==> c in s;
      assert forall k :: 1 <= k < |Words(s)| ==> Words(s)[k] == Words(s[|w|..])[k - 1];
    }
  }

  /** The first word of `a + t` stays inside `a` when `a` has whitespace,
      and runs on into `t` otherwise. */
  lemma {:induction false} WordAppend(a: string, t: string)
    ensures Word(a + t) == if |Word(a)| < |a| then Word(a) else a + Word(t)
    decreases |a|
  {
    if |a| == 0 {
      assert a + t == t;
    } else if !IsSpace(a[0]) {
      var w1 := Word(a[1..]);
      assert (a + t)[0] == a[0] && (a + t)[1..] == a[1..] + t;
      assert Word(a) == [a[0]] + w1;
      assert Word(a + t) == [a[0]] + Word(a[1..] + t);
      WordAppend(a[1..], t);
      if |w1| == |a[1..]| {
        assert w1 == a[1..];
        assert [a[0]] + (a[1..] + Word(t)) == a + Word(t);
      }
    } else {
      assert (a + t)[0] == a[0];
    }
  }

  /** A string of whole words. */
  predicate IsWord(w: string) {
    w != "" && forall i :: 0 <= i < |w| ==> !IsSpace(w[i])
  }

  /** Splitting at a space splits the words: those of the left part, then
      those of the right part. */
  lemma {:induction false} WordsSpaceJoin(a: string, b: string)
    ensures Words(a + " " + b) == Words(a) + Words(b)
    decreases |a|
  {
    var s := a + " " + b;
    if |a| == 0 {
      assert s == " " + b && s[1..] == b;
    } else if IsSpace(a[0]) {
      assert s[0] == a[0] && s[1..] == a[1..] + " " + b;
      WordsSpaceJoin(a[1..], b);
    } else {
      WordsSpaceJoin(a[|Word(a)|..], b);
      WordsSpaceJoinStep(a, b);
    }
  }

  /** The step of `WordsSpaceJoin` past a first word of `a`. */
  lemma WordsSpaceJoinStep(a: string, b: string)
    requires |a| > 0 && !IsSpace(a[0])
    requires Words(a[|Word(a)|..] + " " + b) == Words(a[|Word(a)|..]) + Words(b)
    ensures Words(a + " " + b) == Words(a) + Words(b)
  {
    var w := Word(a);
    WordsAfterFirst(a, b);
    WordsFirst(a);
    var ws, wb := Words(a[|w|..]), Words(b);
    assert [w] + (ws + wb) == ([w] + ws) + wb;
  }

  /** `a + " " + b` splits into the first word of `a`, then the words of
      the rest of `a`, the space and `b`. */
  lemma WordsAfterFirst(a: string, b: string)
    requires |a| > 0 && !IsSpace(a[0])
    ensures Words(a + " " + b) == [Word(a)] + Words(a[|Word(a)|..] + " " + b)
  {
    var s := a + " " + b;
    var w := Word(a);
    assert s[0] == a[0];
    WordBeforeSpace(a, b);
    assert a == w + a[|w|..];
    assert s[|w|..] == a[|w|..] + " " + b;
    WordsFirst(s);
  }

  /** A string opening with a non-space splits into its first word and
      the words of what follows it. */
  lemma WordsFirst(s: string)
    requires |s| > 0 && !IsSpace(s[0])
    ensures Words(s) == [Word(s)] + Words(s[|Word(s)|..])
  {
  }

  /** The first word of `a + " " + b` lies inside `a`. */
  lemma WordBeforeSpace(a: string, b: string)
    ensures Word(a + " " + b) == Word(a)
  {
    assert a + " " + b == a + (" " + b);
    WordAppend(a, " " + b);
    assert Word(" " + b) == "";
    if |Word(a)| == |a| {
      assert Word(a) == a;
    }
  }

  /** Words joined by single spaces split back into the same words. */
  lemma {:induction false} WordsOfJoin(ws: seq<string>)
    requires forall k :: 0 <= k < |ws| ==> IsWord(ws[k])
    ensures Words(Join(" ", ws)) == ws
    decreases |ws|
  {
    if |ws| == 1 {
      OneWord(ws[0]);
    } else if |ws| > 1 {
      WordsOfJoin(ws[1..]);
      OneWord(ws[0]);
      WordsSpaceJoin(ws[0], Join(" ", ws[1..]));
    }
  }

  /** A non-empty string without whitespace splits into itself alone. */
  lemma OneWord(s: string)
    requires |s| > 0 && forall c :: c in s ==> !IsSpace(c)
    ensures Words(s) == [s]
  {
    var w := Word(s);
    assert w == s;
    assert s[|w|..] == [];
  }

  /** `"_".join(keep.split())[:120] or "book"` */
  function SafeName(s: string): (r: string)
    ensures IsSafeName(r)
    ensures forall i :: 0 <= i < |r| ==> !IsSpace(r[i])
  {
    var joined := Join("_", Words(KeepChars(s)));
    var cut := Prefix(joined, MaxNameLength);
    assert forall c :: c in cut ==> SafeChar(c) by {
      forall c | c in cut
        ensures SafeChar(c)
      {
        var ws := Words(KeepChars(s));
        WordsChars(KeepChars(s));
        assert c in joined;
        JoinChars("_", ws, c);
        if c != '_' {
          var k :| 0 <= k < |ws| && c in ws[k];
          assert !IsSpace(c) && KeptChar(c);
        }
      }
    }
    if cut == "" then DefaultName else cut
  }

  /** A string is left unchanged by `_safe_name` exactly when it is already
      a safe name. */
  lemma SafeNameFixedPoint(s: string)
    ensures SafeName(s) == s <==> IsSafeName(s)
  {
    if IsSafeName(s) {
      assert KeepChars(s) == s;
      OneWord(s);
    }
  }

  /** A word made of safe characters only. */
  predicate SafeWord(w: string) {
    w != "" && forall i :: 0 <= i < |w| ==> SafeChar(w[i])
  }

  /** Safe words separated by spaces are joined with underscores and cut
      at the length limit: "Moby Dick - Herman" becomes "Moby_Dick_-_Herman". */
  lemma SafeNameOfWords(ws: seq<string>)
    requires |ws| >= 1 && forall k :: 0 <= k < |ws| ==> SafeWord(ws[k])
    ensures SafeName(Join(" ", ws)) == Prefix(Join("_", ws), MaxNameLength)
  {
    var s := Join(" ", ws);
    KeepsSafeJoin(ws);
    forall k, i | 0 <= k < |ws| && 0 <= i < |ws[k]|
      ensures !IsSpace(ws[k][i])
    {
      SafeCharNotSpace(ws[k][i]);
    }
    WordsOfJoin(ws);
    JoinEmptyIff("_", ws);
    var cut := Prefix(Join("_", ws), MaxNameLength);
    assert |cut| >= 1;
    assert SafeName(s) == cut;
  }

  lemma KeepsSafeJoin(ws: seq<string>)
    requires forall k :: 0 <= k < |ws| ==> SafeWord(ws[k])
    ensures KeepChars(Join(" ", ws)) == Join(" ", ws)
  {
    var s := Join(" ", ws);
    forall i | 0 <= i < |s|
      ensures KeptChar(s[i])
    {
      JoinChars(" ", ws, s[i]);
      if s[i] != ' ' {
        var k :| 0 <= k < |ws| && s[i] in ws[k];
        var j :| 0 <= j < |ws[k]| && ws[k][j] == s[i];
        assert SafeChar(ws[k][j]);
      }
    }
  }

  lemma SafeCharNotSpace(c: char)
    requires SafeChar(c)
    ensures !IsSpace(c)
  {
  }

  /** The only kept character a name may not hold is the space. */
  lemma KeptSpace(c: char)
    requires KeptChar(c) && !SafeChar(c)
    ensures IsSpace(c)
  {
  }

  /** A title with no character a name may keep falls back to "book". */
  lemma NoSafeCharGivesDefault(s: string)
    requires forall i :: 0 <= i < |s| ==> !SafeChar(s[i])
    ensures SafeName(s) == DefaultName
  {
    var kept := KeepChars(s);
    var ws := Words(kept);
    WordsChars(kept);
    if |ws| > 0 {
      var c := ws[0][0];
      assert c in ws[0];
      assert c in kept;
      assert c in s;
      var i :| 0 <= i < |s| && s[i] == c;
      KeptSpace(c);
    }
    assert Join("_", ws) == "";
  }

  /** Sanitising twice is the same as sanitising once. */
  lemma SafeNameIdempotent(s: string)
    ensures SafeName(SafeName(s)) == SafeName(s)
  {
    SafeNameFixedPoint(SafeName(s));
  }
}

=== FILE: strings.dfy ===
/** The Python `str` operations the scripts rely on, over `string`.
    Character classes are the ASCII part of Python's Unicode classes. */
module Strings {

  /** `c.isalnum()` on ASCII letters and digits. */
  predicate IsAlnum(c: char) {
    ('a' <= c <= 'z') || ('A' <= c <= 'Z') || ('0' <= c <= '9')
  }

  predicate IsDigit(c: char) {
    '0' <= c <= '9'
  }

  /** The ASCII characters `str.split()` treats as whitespace: tab, line
      feed, vertical tab, form feed, carriage return, the separators
      0x1C-0x1F, and space. */
  predicate IsSpace(c: char) {
    (9 <= c as int <= 13) || (28 <= c as int <= 32)
  }

  function LowerChar(c: char): char {
    if 'A' <= c <= 'Z' then (c as int + 32) as char else c
  }

  /** `s.lower()`, character by character. */
  function Lower(s: string): (r: string)
    ensures |r| == |s|
    ensures forall i :: 0 <= i < |s| ==> r[i] == LowerChar(s[i])
  {
    seq(|s|, i requires 0 <= i < |s| => LowerChar(s[i]))
  }

  /** `s.startswith(p)` */
  predicate IsPrefix(p: string, s: string) {
    |p| <= |s| && s[..|p|] == p
  }

  /** `s.endswith(p)` */
  predicate IsSuffix(p: string, s: string) {
    |p| <= |s| && s[|s| - |p|..] == p
  }

  /** Appending keeps a prefix. */
  lemma PrefixOfConcat(p: string, s: string, t: string)
    requires IsPrefix(p, s)
    ensures IsPrefix(p, s + t)
  {
    assert (s + t)[..|p|] == s[..|p|];
  }

  /** Prepending keeps a suffix. */
  lemma SuffixOfConcat(p: string, s: string, t: string)
    requires IsSuffix(p, t)
    ensures IsSuffix(p, s + t)
  {
    assert (s + t)[|s + t| - |p|..] == t[|t| - |p|..];
  }

  /** The three parts of `a + b + c` slice back out at their offsets. */
  lemma Parts3<T>(a: seq<T>, b: seq<T>, c: seq<T>)
    ensures var s := a + b + c;
            && |s| == |a| + |b| + |c|
            && s[..|a|] == a
            && s[|a|..|a| + |b|] == b
            && s[|a| + |b|..] == c
  {
    var s := a + b + c;
    assert s[..|a|] == a;
    assert s[|a|..|a| + |b|] == b;
    assert s[|a| + |b|..] == c;
  }

  /** `sub in s`: does `sub` start at the head of `s` or somewhere later? */
  predicate Contains(s: string, sub: string)
    decreases |s|
  {
    IsPrefix(sub, s) || (|s| > 0 && Contains(s[1..], sub))
  }

  /** An occurrence of `sub` in `s` at offset `i`. */
  ghost predicate OccursAt(s: string, sub: string, i: int) {
    0 <= i && i + |sub| <= |s| && s[i..i + |sub|] == sub
  }

  /** `Contains` is exactly "there is an offset where `sub` occurs". */
  lemma {:induction false} ContainsIff(s: string, sub: string)
    ensures Contains(s, sub) <==> exists i :: OccursAt(s, sub, i)
    decreases |s|
  {
    if IsPrefix(sub, s) {
      assert OccursAt(s, sub, 0);
    } else if |s| == 0 {
    } else {
      ContainsIff(s[1..], sub);
      if Contains(s[1..], sub) {
        var i :| OccursAt(s[1..], sub, i);
        assert s[1..][i..i + |sub|] == s[i + 1..i + 1 + |sub|];
        assert OccursAt(s, sub, i + 1);
      }
      if exists i :: OccursAt(s, sub, i) {
        var i :| OccursAt(s, sub, i);
        var a, b := s[1..][i - 1..i - 1 + |sub|], s[i..i + |sub|];
        assert forall k :: 0 <= k < |sub| ==> a[k] == b[k];
        assert a == b;
        assert OccursAt(s[1..], sub, i - 1);
      }
    }
  }

  /** An occurrence at a known offset makes `Contains` true. */
  lemma ContainsAt(s: string, sub: string, i: int)
    requires OccursAt(s, sub, i)
    ensures Contains(s, sub)
  {
    ContainsIff(s, sub);
  }

  /** A string contains whatever one of its prefixes contains. */
  lemma ContainsViaPrefix(p: string, s: string, sub: string)
    requires IsPrefix(p, s) && Contains(p, sub)
    ensures Contains(s, sub)
  {
    ContainsIff(p, sub);
    var i :| OccursAt(p, sub, i);
    assert s[i..i + |sub|] == p[i..i + |sub|];
    ContainsAt(s, sub, i);
  }

  /** `sep.join(parts)` */
  function Join(sep: string, parts: seq<string>): string
    decreases |parts|
  {
    if |parts| == 0 then ""
    else if |parts| == 1 then parts[0]
    else parts[0] + sep + Join(sep, parts[1..])
  }

  /** Every character of a join comes from the separator or from a part. */
  lemma {:induction false} JoinChars(sep: string, parts: seq<string>, c: char)
    requires c in Join(sep, parts)
    ensures c in sep || exists k :: 0 <= k < |parts| && c in parts[k]
    decreases |parts|
  {
    if |parts| > 1 {
      if c !in parts[0] && c !in sep {
        JoinChars(sep, parts[1..], c);
        var k :| 0 <= k < |parts[1..]| && c in parts[1..][k];
        assert c in parts[k + 1];
      }
    }
  }

  /** A join is empty exactly when there is no part, or a single empty one,
      provided the separator is not empty. */
  lemma {:induction false} JoinEmptyIff(sep: string, parts: seq<string>)
    requires sep != ""
    ensures Join(sep, parts) == "" <==> |parts| == 0 || (|parts| == 1 && parts[0] == "")
  {
    if |parts| > 1 {
      assert |Join(sep, parts)| >= |sep|;
    }
  }

  /** `"".join(parts)`, and in general the parts laid end to end. */
  function Concat<T>(parts: seq<seq<T>>): seq<T>
    decreases |parts|
  {
    if |parts| == 0 then [] else parts[0] + Concat(parts[1..])
  }

  lemma {:induction false} ConcatAppend<T>(a: seq<seq<T>>, b: seq<seq<T>>)
    ensures Concat(a + b) == Concat(a) + Concat(b)
    decreases |a|
  {
    if |a| == 0 {
      assert a + b == b;
    } else {
      assert (a + b)[1..] == a[1..] + b;
      ConcatAppend(a[1..], b);
    }
  }

  /** `c * n` */
  function Repeat(c: char, n: nat): (r: string)
    ensures |r| == n
    ensures forall i :: 0 <= i < n ==> r[i] == c
  {
    seq(n, i => c)
  }

  /** `s[:n]` for any integer `n`; a negative `n` counts from the end. */
  function Prefix<T>(s: seq<T>, n: int): (r: seq<T>)
    ensures |r| <= |s| && r == s[..|r|]
    ensures 0 <= n <= |s| ==> |r| == n
    ensures n >= |s| ==> r == s
    ensures n < 0 ==> |r| == if |s| + n >= 0 then |s| + n else 0
  {
    if n >= |s| then s
    else if n >= 0 then s[..n]
    else if |s| + n >= 0 then s[..|s| + n]
    else []
  }

  function DigitChar(d: nat): (c: char)
    requires d < 10
    ensures IsDigit(c)
  {
    ('0' as int + d) as char
  }

  /** `str(n)` for a non-negative integer: decimal digits, no leading zero. */
  function Decimal(n: nat): (r: string)
    ensures |r| >= 1
    ensures forall i :: 0 <= i < |r| ==> IsDigit(r[i])
    ensures |r| > 1 ==> r[0] != '0'
  {
    if n < 10 then [DigitChar(n)] else Decimal(n / 10) + [DigitChar(n % 10)]
  }

  /** `int(s)` on a string of decimal digits. */
  function DecimalValue(s: string): nat
    requires forall i :: 0 <= i < |s| ==> IsDigit(s[i])
  {
    if |s| == 0 then 0
    else
      assert IsDigit(s[|s| - 1]);
      DecimalValue(s[..|s| - 1]) * 10 + (s[|s| - 1] as int - '0' as int)
  }

  /** Reading back the digits `str(n)` writes gives `n`. */
  lemma {:induction false} DecimalRoundTrip(n: nat)
    ensures DecimalValue(Decimal(n)) == n
  {
    if n >= 10 {
      var d := Decimal(n);
      assert d[..|d| - 1] == Decimal(n / 10);
      DecimalRoundTrip(n / 10);
    }
  }
  /** A number written with `str` after `lead` and before `after` sits at
      a fixed offset and reads back as itself. */
  lemma NumberField(lead: string, n: nat, after: string, r: string)
    requires IsPrefix(lead + Decimal(n) + after, r)
    ensures |lead| + |Decimal(n)| + |after| <= |r|
    ensures var field := r[|lead|..|lead| + |Decimal(n)|];
            && r[..|lead|] == lead
            && r[|lead| + |Decimal(n)|..|lead| + |Decimal(n)| + |after|] == after
            && field == Decimal(n)
            && DecimalValue(field) == n
  {
    var d := Decimal(n);
    var head := lead + d + after;
    Parts3(lead, d, after);
    assert r[..|head|] == head;
    assert r[..|lead|] == head[..|lead|];
    assert r[|lead| + |d|..|lead| + |d| + |after|] == head[|lead| + |d|..];
    assert r[|lead|..|lead| + |d|] == head[|lead|..|lead| + |d|];
    DecimalRoundTrip(n);
  }

  /** Python's `a <= b` on strings: lexicographic by code point, a proper
      prefix before the longer string. */
  predicate StrLe(a: string, b: string)
    decreases |a|
  {
    |a| == 0 || (|b| > 0 && (a[0] < b[0] || (a[0] == b[0] && StrLe(a[1..], b[1..]))))
  }

  lemma {:induction false} StrLeTotal(a: string, b: string)
    ensures StrLe(a, b) || StrLe(b, a)
    decreases |a|
  {
    if |a| > 0 && |b| > 0 && a[0] == b[0] {
      StrLeTotal(a[1..], b[1..]);
    }
  }

  lemma {:induction false} StrLeTransitive(a: string, b: string, c: string)
    requires StrLe(a, b) && StrLe(b, c)
    ensures StrLe(a, c)
    decreases |a|
  {
    if |a| > 0 && a[0] == b[0] && b[0] == c[0] {
      StrLeTransitive(a[1..], b[1..], c[1..]);
    }
  }

  lemma {:induction false} StrLeAntisymmetric(a: string, b: string)
    requires StrLe(a, b) && StrLe(b, a)
    ensures a == b
    decreases |a|
  {
    if |a| > 0 {
      StrLeAntisymmetric(a[1..], b[1..]);
      assert a == [a[0]] + a[1..] && b == [b[0]] + b[1..];
    }
  }
}
